=== FILE: README.md ===
# Verified model of the polyp dataset helper scripts

This project models the decision logic of four command-line scripts that prepare
a paired image/segmentation-mask dataset. It is written in Dafny, and the
properties the scripts promise are proved about the model.

- **Mask binariser** (`fix_masks_to_binary.py`, module `FixMasks`). It forces
  every single-channel 8-bit mask onto the two levels 0 and 255. There are three
  branches, chosen by the set of distinct values. It also decides where a
  binarised mask is written.
- **Pair pruner** (`prune_unpaired_pairs.py`, module `Prune`). It pairs an image
  `<base>.<ext>` with a mask `<base>_mask.<ext>` by exact, case-sensitive stem.
  Every file without a partner is deleted, or only listed on a dry run.
- **Split merger** (`gather_images_and_masks.py`, module `Gather`). It walks the
  `data_C*` split folders and finds each split's image and mask folders. Each
  image is copied under a split-tagged name, and its mask is looked up by a
  strict and then a relaxed rule. Images without a mask and masks that no image
  claimed are reported.
- **Resizer** (`resize_dataset_256.py`, module `Resize`). It computes the
  keep-aspect geometry (scale, rounded size, centred offsets), builds the
  zero-filled canvas with the scaled buffer pasted into it, and keeps the
  processed/skipped bookkeeping of a folder run.

Two modules are shared:

- `Paths` holds file names, which are split into stem and final suffix. It also
  holds directory trees as lists of entries in listing order, the string tests
  the scripts use, and the reserved `_mask` token.
- `Seqs` holds an optional value, an order-preserving filter and the
  subsequence relation.

Where the code works step by step, the model is imperative:

- the mask-base loop;
- the unpaired-mask loop;
- the delete loop over a `Disk` object;
- the strict and relaxed mask-search loops;
- the copy loop and the extra-mask loop;
- the totals loop;
- the canvas paste into a two-dimensional array;
- the resize loop.

Each of these methods has its result or its new state given by its `ensures`.
That is either equality with a specification function or, for the delete loop
and the canvas paste, the new state itself. The properties are proved as lemmas
about those functions.

The file system is abstract:

- enumeration is a walk over a tree of entries;
- a copy is a recorded `Copy` value;
- a deletion removes an element from the `Disk` state;
- opening, converting, resampling and saving an image are parameters: a `Probe`
  per file, a save-failure predicate, and the scaled pixel buffer.

Four behaviours of the code are easy to misread, and the model follows them as
written:

- **Extra masks.** A mask is reported as extra when its lower-cased stem
  contains `_mask` and is not the lower-cased stem of a mask chosen for some
  image (`gather_images_and_masks.py:113-117`). It is not compared with the
  images' destination names.
- **Prefix fallback.** When the exact folder is missing, the merger takes the
  first sub-folder, in listing order, whose lower-cased name starts with the
  lower-cased prefix (`gather_images_and_masks.py:15-17`). It takes the first
  match, not the longest.
- **Binariser.** Every nonzero value becomes 255, in the multi-level branch as
  well (`fix_masks_to_binary.py:29`). The threshold that the function's comment
  mentions is never applied.
- **Allow-lists.** Each script has its own allow-list, and the lists differ. The
  merger's list has no `.webp`, and the binariser does not skip hidden files.
  `Resize.AllowListsDiffer` exhibits both differences.

The relaxed mask search matches by prefix only. So an image `C1_1` with no
strict mask takes the mask of image `C1_10` when that is the only candidate
(`Gather.RelaxedPrefixExample`).

## Model

| member | source | states |
|---|---|---|
| FixMasks.Classify | fix_masks_to_binary.py:19-29 | The three encodings, each characterised by the samples. Already binary: every sample is 0 or 255. 0/1 labels: every sample is at most 1 and some sample is 1. Multi-level: some sample lies strictly between 1 and 255, or both 1 and 255 occur. |
| FixMasks.Binarize | fix_masks_to_binary.py:11-34 | The output has the input's width, height and length, and every output sample is 0 or 255, whatever the input. |
| FixMasks.BinarizeKeepsBinary | fix_masks_to_binary.py:20-22 | An image whose samples are all 0 or 255 is returned unchanged. This includes the all-zero mask. |
| FixMasks.BinarizeScalesLabels | fix_masks_to_binary.py:23-24 | For 0/1 labels with at least one 1, each output sample is 255 times the input sample. The uint8 product does not wrap. |
| FixMasks.BinarizeIsNonzeroCollapse | fix_masks_to_binary.py:19-29 | In every branch, an output sample is 255 exactly when the input sample is nonzero, and 0 otherwise. |
| FixMasks.BinarizeIdempotent | fix_masks_to_binary.py:20-29 | Binarising twice gives the same image as binarising once. |
| FixMasks.BinarizedValues | fix_masks_to_binary.py:11-13 | The distinct values after binarising are a subset of {0, 255}. |
| FixMasks.ThreeLevelExample | fix_masks_to_binary.py:29 | The mask [0, 128, 255] becomes [0, 255, 255]. |
| FixMasks.PngDestination | fix_masks_to_binary.py:53-57 | The out-png destination has the extension ".png" and a stem ending in "_mask". The stem is the original stem, or the original with "_mask" appended. A stem already ending in "_mask" is kept as it is. |
| FixMasks.PngDestinationIdempotent | fix_masks_to_binary.py:53-57 | The destination of a destination is itself, so the suffix is never doubled. |
| FixMasks.ProcessMaskFile | fix_masks_to_binary.py:49-66 | A dry run writes nothing, and only a dry run writes nothing. The buffer handed to `save` is `Binarize` of the luma channel, so it keeps the size and holds only 0 and 255. With out-png it goes to `PngDestination` of the file, and the original is removed exactly when the new name differs. Without out-png the original file is re-saved under its own name; a JPEG re-encoding is lossy, so the stored samples need not stay 0/255. |
| FixMasks.CaseOnlyRenameRemovesWrittenMask | fix_masks_to_binary.py:53-61 | On a volume that ignores case, `x_mask.PNG` is written as `x_mask.png`, which is the same file, and that file is then removed. |
| FixMasks.ProcessMaskFileOnVolume | fix_masks_to_binary.py:49-66 | Makes the same write as `ProcessMaskFile`, but the original is removed exactly when the PNG is a different file on the volume. On a case-sensitive volume it agrees with `ProcessMaskFile`. |
| FixMasks.PngMaskKeptInPlace | fix_masks_to_binary.py:53-63 | A mask already named `<base>_mask.png` is rewritten under its own name and not removed. |
| Paths.StripMaskSuffix | prune_unpaired_pairs.py:27-28 | Stripping the suffix leaves a base that gives the stem back when "_mask" is appended. |
| Paths.StripAppended | prune_unpaired_pairs.py:63 | Stripping is the inverse of appending "_mask". |
| Paths.Walk | prune_unpaired_pairs.py:10-11 | A name is a file at the top of the walk exactly when it is a regular file directly in the folder. All of the folder's own files come before any file below it, as in `rglob("*")`. |
| Paths.WalkOrderExample | prune_unpaired_pairs.py:10-11 | `b.png`, listed after the folder `sub`, still comes before `sub/a.png`. |
| Paths.TopFiles | gather_images_and_masks.py:35-36 | A file name is listed exactly when it is a regular file directly in the folder. |
| Prune.MediaFiles | prune_unpaired_pairs.py:9-12 | The enumerated files are exactly the walked files that have an allowed lower-cased extension and a name not starting with ".". They appear in walk order (a subsequence). |
| Prune.MaskBasesExactly | prune_unpaired_pairs.py:23-28 | A base is a mask base exactly when some mask's stem is that base followed by "_mask". |
| Prune.MaskBasesSnoc | prune_unpaired_pairs.py:25-28 | One more mask adds its stripped stem if it carries the suffix, and nothing otherwise. |
| Prune.CollectMaskBases | prune_unpaired_pairs.py:23-28 | The loop builds exactly the set of stripped stems of the suffixed masks. |
| Prune.ComputeBases | prune_unpaired_pairs.py:14-33 | Returns both enumerations, the image stems and the mask bases. A base is in the mask bases exactly when some mask's stem is that base plus "_mask". |
| Prune.UnpairedImages | prune_unpaired_pairs.py:53 | An image is unpaired exactly when its stem, compared case-sensitively, is not a mask base. The list keeps enumeration order. |
| Prune.ClassifyMasks | prune_unpaired_pairs.py:56-65 | A mask is listed exactly when its stem lacks the suffix or its stripped stem is no image stem. The list keeps enumeration order. |
| Prune.SuffixlessMaskUnpaired | prune_unpaired_pairs.py:58-62 | A mask without the suffix is unpaired whatever images exist. |
| Prune.SuffixedMaskUnpaired | prune_unpaired_pairs.py:63-65 | A suffixed mask is unpaired exactly when its stripped stem is not an image stem. |
| Prune.PruneLeavesExactPairs | prune_unpaired_pairs.py:52-65 | After the unpaired files are removed, the surviving image stems equal image bases ∩ mask bases, and so do the surviving mask roots. Every surviving mask carries the suffix. |
| Prune.Targets | prune_unpaired_pairs.py:89 | The deletion list has one entry per unpaired image and one per unpaired mask. |
| Prune.TargetsSplit | prune_unpaired_pairs.py:89 | An entry is on the deletion list exactly when it is an unpaired image in the images folder or an unpaired mask in the masks folder. |
| Prune.Disk.Unlink | prune_unpaired_pairs.py:90-92 | Removal succeeds exactly when the file exists and is not locked, and then only that file disappears. |
| Prune.DeleteAll | prune_unpaired_pairs.py:87-94 | Every listed, existing, unlocked file is removed, and nothing else. A failed removal does not stop the loop. `deleted` counts the files removed and is at most the list length. |
| Prune.PruneRun | prune_unpaired_pairs.py:50-94 | The report holds both counts and both unpaired lists. A dry run deletes nothing and leaves the disk unchanged. Otherwise exactly the deletable listed files go, and `deleted` is at most the number of unpaired files. |
| Prune.PairingExample | prune_unpaired_pairs.py:50-65 | Images C1_100H0001 and C1_100H0002 with the one mask C1_100H0001_mask.png give one unpaired image (the second) and no unpaired mask. |
| Gather.StrictExtOrderCoversImgExts | gather_images_and_masks.py:29 | The strict lookup tries exactly the merger's allowed extensions. |
| Gather.FindDir | gather_images_and_masks.py:10-18 | The exact-named sub-folder wins when it exists. Otherwise the result is the first sub-folder, in listing order, whose lower-cased name starts with the lower-cased prefix. The result is None exactly when there is neither. A result is always a folder among the entries. |
| Gather.FindDirExactOrPrefix | gather_images_and_masks.py:10-18 | The two loops compute `FindDir`. |
| Gather.StrictLookup | gather_images_and_masks.py:29-32 | Returns the first extension under which `<base>_mask<ext>` exists. Returns None exactly when it exists under none of them. |
| Gather.ChooseMask | gather_images_and_masks.py:20-42 | A strict pick happens exactly when `<base>_mask<ext>` exists for some allowed extension, and it names such a file. Otherwise a relaxed pick happens exactly when there is one relaxed candidate, and it is that candidate. Zero or several candidates give no mask, with their count. |
| Gather.StrictWins | gather_images_and_masks.py:29-32 | If a strictly named mask exists, the choice is strict and names an existing file. |
| Gather.RelaxedNeverGuesses | gather_images_and_masks.py:34-42 | Without a strict mask, a relaxed pick is a listed file that matches the pattern. Any number of candidates other than one gives no mask. |
| Gather.RelaxedPrefixExample | gather_images_and_masks.py:34-41 | With only C1_10_mask.png present, image C1_1 is given that mask. |
| Gather.ChooseMaskFor | gather_images_and_masks.py:20-42 | The strict loop and the candidate-collecting loop compute `ChooseMask`. |
| Gather.FindLast | gather_images_and_masks.py:66 | Finds the last occurrence of a marker, or None exactly when there is none. |
| Gather.SplitTag | gather_images_and_masks.py:66 | The tag is a suffix of the folder name with no "data_" in it. It is either the whole name or the text after a "data_". |
| Gather.SplitTagLower | gather_images_and_masks.py:65-66 | "data_C1" gives the tag "C1". |
| Gather.SplitTagUpper | gather_images_and_masks.py:66 | "DATA_C2" keeps its whole name as its tag, because the split is case-sensitive. |
| Gather.CopyImagesCounts | gather_images_and_masks.py:93-111 | `copied_imgs` equals the number of images; `copied_masks` equals the number of images whose mask search resolves, and `copied_masks + len(imgs_without_mask) == copied_imgs`. A dry run copies nothing. Otherwise there is one copy per image and one per chosen mask. |
| Gather.CopyImagesStep | gather_images_and_masks.py:97-111 | Each image adds its missing entry or its matched stem, according to its mask search. |
| Gather.CopyImagesMissing | gather_images_and_masks.py:104-106 | The missing list holds exactly `<tag>:<stem>` for the images whose mask search is unresolved. |
| Gather.CopyImagesMatched | gather_images_and_masks.py:107-111 | The matched set holds exactly the lower-cased stems of the masks chosen for some image. |
| Gather.CopyImagesDestinations | gather_images_and_masks.py:97-110 | Outside a dry run, each image is copied to `<tag>_<stem><lower ext>`. Each chosen mask is copied to `<tag>_<stem>_mask<lower mask ext>`. |
| Gather.ExtraMasks | gather_images_and_masks.py:113-117 | The extra list has one entry per extra mask, and holds exactly `<tag>:<stem>` for the masks whose lower-cased stem contains "_mask" and is not a matched stem. |
| Gather.CopyImagesLoop | gather_images_and_masks.py:93-111 | The image loop computes `CopyImages`. |
| Gather.ExtraMasksLoop | gather_images_and_masks.py:113-117 | The extra-mask loop computes `ExtraMasks`. |
| Gather.ProcessSplit | gather_images_and_masks.py:59-119 | The split is processed as `SplitOutcome` specifies. |
| Gather.SplitBalance | gather_images_and_masks.py:75-111 | A split without both folders contributes (0, 0, [], []). Otherwise `copied_imgs` is the number of enumerated images. Masks copied plus images without a mask equals images copied. A dry run copies nothing. |
| Gather.SplitDirs | gather_images_and_masks.py:134 | The splits are exactly the folders whose lower-cased name starts with "data_c". |
| Gather.SplitOutcomes | gather_images_and_masks.py:144-145 | There is one result per split. |
| Gather.SumSplitsBalance | gather_images_and_masks.py:139-150 | Balanced split results add up to balanced totals. |
| Gather.OutcomesBalanced | gather_images_and_masks.py:144-150 | Every split's result is balanced. |
| Gather.RunBalance | gather_images_and_masks.py:139-150 | Over the run, masks copied plus images without a mask equals images copied. A dry run copies nothing. |
| Gather.SplitOutcomesSnoc | gather_images_and_masks.py:144-145 | One more split appends its result. |
| Gather.SumSplitsSnoc | gather_images_and_masks.py:144-150 | One more split adds its counts and appends its lists. |
| Gather.SumSplitsLoop | gather_images_and_masks.py:139-150 | The totals are the sums and concatenations of the per-split results. |
| Gather.GatherAll | gather_images_and_masks.py:134-150 | The result is None exactly when the root holds no split folder. Otherwise it is the totals over the split folders. |
| Resize.ImageFileIsMediaFile | resize_dataset_256.py:9-10 | `is_image_file` holds exactly when the lower-cased extension is allowed and the name does not start with ".". This is the pruner's filter. |
| Resize.AllowListsDiffer | resize_dataset_256.py:7-10 | A ".webp" file is resized but not merged. A hidden ".png" mask is binarised but not resized. |
| Resize.RoundHalfEven | resize_dataset_256.py:24 | The result is within one half of its argument, and a tie goes to the even integer. |
| Resize.RoundBetween | resize_dataset_256.py:24 | Rounding stays between the integers that bound its argument. |
| Resize.RoundInt | resize_dataset_256.py:24 | An integer rounds to itself. |
| Resize.Max1 | resize_dataset_256.py:24 | The result is at least 1 and at least its argument, and equals the argument when that is positive. |
| Resize.MinReal | resize_dataset_256.py:23 | The result is the smaller of the two ratios. |
| Resize.Scale | resize_dataset_256.py:23 | The factor is positive and is the smaller of the two target ratios, so that both scaled sides fit. |
| Resize.KeepAspect | resize_dataset_256.py:20-42 | None exactly when a side is zero, which is where the division raises. Otherwise each new side is `max(1, round(side × Scale))`, where `round` sends a tie to the even integer. Also 1 ≤ new_w ≤ target_w and 1 ≤ new_h ≤ target_h, and one side fills its target. Both offsets are non-negative, the block fits, and it is centred: each far margin equals the near one or is one more. |
| Resize.KeepAspectKeepsAspect | resize_dataset_256.py:23-24 | Both sides are scaled by the same factor. Each new side is within one half of the scaled side, or is 1 when that rounds to nothing, so the aspect is kept up to rounding. |
| Resize.RoundedSideNear | resize_dataset_256.py:24 | `max(1, round(x))` is within one half of `x`, or is 1 when `x` is at most one half. |
| Resize.ScaledSides | resize_dataset_256.py:23-24 | Both scaled sides are positive and at most their targets, and one of them equals its target exactly. |
| Resize.Fit | resize_dataset_256.py:24-42 | For scaled sides that fit the target, one of them exactly, each side is rounded half to even and kept at one pixel at least. The block fits, fills one side and is centred. |
| Resize.KeepAspectTieExample | resize_dataset_256.py:23-42 | 512×385 on a 256×256 target gives 192.5 for the height, which rounds to the even 192, so the block is at left 0, top 32. |
| Resize.SquareFillsCanvas | resize_dataset_256.py:23-42 | 100×100 on a 256×256 target fills the whole canvas at (0, 0). |
| Resize.ScaledSideFits | resize_dataset_256.py:23-24 | A side scaled by no more than its own ratio rounds to at most the target. It becomes the target when scaled by exactly that ratio. |
| Resize.KeepAspectExample | resize_dataset_256.py:23-42 | 512×384 on a 256×256 target gives a 256×192 block at left 0, top 32. |
| Resize.PadToCanvas | resize_dataset_256.py:33-43 | The canvas is a new array of exactly target_h rows by target_w columns. Inside the pasted block each pixel equals the scaled buffer. Everywhere else it is the zero fill. |
| Resize.ResizeKeepAspect | resize_dataset_256.py:20-44 | None exactly when a side is zero. Otherwise the canvas is a new array of the target size and holds the scaled buffer at the centred offsets, with zero everywhere else. |
| Resize.SaveDest | resize_dataset_256.py:83-92 | The destination keeps the relative path and stem, below the output folder or in place. Masks get ".png" and images keep their extension. |
| Resize.Attempt | resize_dataset_256.py:73-98 | A file is counted exactly when it opens, has no zero side in keep-aspect mode, and (outside a dry run) saves. A counted file writes nothing exactly on a dry run. A write goes to the save destination at the target size. |
| Resize.ImageFiles | resize_dataset_256.py:65 | The visited files are exactly the walked files accepted by `is_image_file`. |
| Resize.RunFilesBalance | resize_dataset_256.py:70-100 | count + skipped equals the number of files. The counted files are exactly those whose turn succeeds, and the skipped files are the rest. A dry run writes nothing. Otherwise there is one write per counted file. |
| Resize.RunFilesWrites | resize_dataset_256.py:83-93 | Every write has the target size and goes to the save destination of a visited file. A mask is always written as ".png". |
| Resize.DirOutcomeCounts | resize_dataset_256.py:62-68 | A missing folder, or one with no images, gives (0, 0). Otherwise count + skipped equals the number of visited files. A dry run writes nothing. |
| Resize.RunFilesSnoc | resize_dataset_256.py:72-98 | One more file adds its turn to the bookkeeping. |
| Resize.RunFilesLoop | resize_dataset_256.py:70-100 | The loop computes `RunFiles`. |
| Resize.ProcessDir | resize_dataset_256.py:54-100 | The folder is processed as `DirOutcome` specifies. |

## Left out

- Argument parsing, the `main` functions' directory checks, and all printed
  output are not modelled. The merger's totals are modelled; the binariser's
  file loop (`fix_masks_to_binary.py:79-86`) and the resizer's two-folder
  summary (`resize_dataset_256.py:113-136`) are command-line glue and are not.
- Paths.Walk: the order within one folder listing is the file system's, and
  the model takes the listing order as given. Below a folder, sub-folders are
  visited depth first in listing order, as `rglob` does up to Python 3.11.
  Python 3.12 lists the files of all of a folder's sub-folders before those one
  level further down. Python 3.13 visits sub-folders from last to first. Neither
  of those orders is modelled.
- Gather.GatherAll: the merger sorts the split folders
  (`gather_images_and_masks.py:134`). The model does not sort: it takes them in the order of the root's
  entries, which can change the order of the concatenated lists but not the counts.
- The strict mask lookup iterates a Python set, whose order is unspecified.
  The model fixes one order (`Gather.StrictExtOrder`). When several strict
  masks exist, which one the source picks is left open.
- `exists()` in the strict lookup is also true for a folder of that name, and
  lookups may be case-insensitive on some file systems. The model looks only at
  regular files directly in the masks folder, by exact name.
- Gather.FindDir: the exact-name test `exact_dir.is_dir()`
  (`gather_images_and_masks.py:12-13`) may also match a folder whose name
  differs only in case on a case-insensitive file system. The model compares
  the exact name case-sensitively.
- Copying (`copy_file`, hard links, `shutil.copy2`) and `mkdir` are abstract:
  a copy is a recorded `Copy`, and a failing `mkdir` is not modelled.
- Folders created on a dry run are not modelled. A dry run writes and copies no
  file, and that is all the model's "a dry run copies/writes nothing" promises.
  `copy_file` creates the destination folder before it tests the dry-run flag
  (`gather_images_and_masks.py:45-46`). The resizer creates output folders
  before its dry-run test too (`resize_dataset_256.py:84-89`, and in `main` at
  lines 123 and 131).
- Everything done by the imaging library is abstract: opening, the luma
  conversion, `ensure_mask_mode`, the NEAREST/BILINEAR resampling, stretch
  resizing and saving. The scaled buffer, a `Probe` per file and a save-failure
  predicate are inputs.
- Resize.RoundHalfEven: uses exact real arithmetic. The source divides and
  multiplies IEEE doubles, and the two can differ when the double product lands
  just beside a half.
- Resize.KeepAspect: the target sides have type `Side` (positive). A `--size`
  of zero or less, which the source does not reject, is not modelled.
- Paths.Lower: lower-cases ASCII letters only. Python's `str.lower` covers
  Unicode.
- Prune.DeleteAll: the images folder and the masks folder are taken to be
  distinct, so each deletion target carries its folder. A file that is listed
  twice, with both folders the same, is not modelled.
- FixMasks.ProcessMaskFile: compares names within one folder where the source
  compares resolved paths. This is exact on a case-sensitive volume; the other
  case is the finding below. A failed removal of the original is ignored, as in
  the source, and is not reported.
- The unused `thresh` parameter and threshold variant
  (`fix_masks_to_binary.py:31-32`) are not modelled, nor is the unused
  `mask_stems` index (`gather_images_and_masks.py:88-91`).
- Two kinds of caught failure are modelled. The resizer skips a file whose
  turn raises (`Resize.Attempt`). The pruner's failed `unlink` is a locked
  file in `Prune.Disk`: it is counted as not deleted, and the loop goes on
  (`Prune.DeleteAll`). Uncaught failures are not modelled, and each would stop
  its script. The binariser has no handler, so an unreadable mask stops it. A
  failing `copy_file` is not caught either, so it stops the merger
  (`gather_images_and_masks.py:101`, `109`).

## Findings

| source | as written | input that shows it | evidently intended | confidence | as-written member | corrected member |
|---|---|---|---|---|---|---|
| fix_masks_to_binary.py:53-61 | The original is removed when the resolved paths differ. Resolving a path keeps its letter case. | `--out-png` on `x_mask.PNG` on a volume that ignores case, such as a default macOS volume: the PNG `x_mask.png` overwrites the same file, and it is then removed | remove the original only when it is a different file | low; not executed, and it depends on how the platform resolves paths | FixMasks.CaseOnlyRenameRemovesWrittenMask | FixMasks.ProcessMaskFileOnVolume |

=== FILE: fix_masks.dfy ===
/** The mask binariser: forces a single-channel 8-bit mask onto the two levels
    0 and 255, and decides where the result is written. */
module FixMasks {
  import opened Paths

  /** Extensions the binariser enumerates (compared in lower case). */
  const ImgExts: set<string> := {".jpg", ".jpeg", ".png", ".bmp", ".tif", ".tiff", ".webp"}

  /** The binariser's enumeration test: only the extension is looked at, so a
      hidden file with an allowed extension is processed too. */
  predicate IsMaskFile(f: FileName)
  {
    Lower(f.ext) in ImgExts
  }

  type Byte = x: int | 0 <= x < 256

  /** A single-channel 8-bit image; `samples` holds the rows one after another. */
  datatype Gray = Gray(width: nat, height: nat, samples: seq<Byte>)

  /** A well-formed luma channel: one sample per pixel of the grid. */
  type Luma = g: Gray | |g.samples| == g.width * g.height witness Gray(0, 0, [])

  /** The distinct sample values of an image. */
  function Values(g: Gray): set<Byte>
  {
    set i | 0 <= i < |g.samples| :: g.samples[i]
  }

  /** The three encodings the binariser tells apart by the distinct-value set. */
  datatype Encoding = AlreadyBinary | ZeroOneLabels | Multilevel

  function Classify(g: Luma): (e: Encoding)
    ensures e == AlreadyBinary <==>
      forall i :: 0 <= i < |g.samples| ==> g.samples[i] == 0 || g.samples[i] == 255
    ensures e == ZeroOneLabels <==>
      (forall i :: 0 <= i < |g.samples| ==> g.samples[i] <= 1)
      && (exists i :: 0 <= i < |g.samples| && g.samples[i] == 1)
    ensures e == Multilevel <==>
      (exists i :: 0 <= i < |g.samples| && 1 < g.samples[i] < 255)
      || ((exists i :: 0 <= i < |g.samples| && g.samples[i] == 1)
          && (exists j :: 0 <= j < |g.samples| && g.samples[j] == 255))
  {
    var u := Values(g);
    assert forall i :: 0 <= i < |g.samples| ==> g.samples[i] in u;
    if u <= {0, 255} then AlreadyBinary
    else if u <= {0, 1} then ZeroOneLabels
    else Multilevel
  }

  /** Multiplication of two uint8 arrays: the product wraps modulo 256. */
  function MulU8(a: Byte, b: Byte): Byte
  {
    (a * b) % 256
  }

  /** `binarize_array`: keep an image that is already 0/255, scale 0/1 labels by
      255, and otherwise send every nonzero sample to 255. The `thresh`
      parameter of the source is never read and is not modelled. */
  function Binarize(g: Luma): (r: Luma)
    ensures r.width == g.width && r.height == g.height
    ensures |r.samples| == |g.samples|
    ensures forall i :: 0 <= i < |r.samples| ==> r.samples[i] == 0 || r.samples[i] == 255
  {
    match Classify(g)
    case AlreadyBinary => g
    case ZeroOneLabels =>
      g.(samples := seq(|g.samples|, i requires 0 <= i < |g.samples| => MulU8(g.samples[i], 255)))
    case Multilevel =>
      g.(samples := seq(|g.samples|, i requires 0 <= i < |g.samples| => if g.samples[i] > 0 then 255 else 0))
  }

  /** An image whose values are all 0 or 255 (the all-zero image included) is
      returned unchanged. */
  lemma BinarizeKeepsBinary(g: Luma)
    requires forall i :: 0 <= i < |g.samples| ==> g.samples[i] == 0 || g.samples[i] == 255
    ensures Binarize(g) == g
  {
  }

  /** 0/1 labels that are not already 0/255 are multiplied by 255, with no
      uint8 wrap-around. */
  lemma BinarizeScalesLabels(g: Luma)
    requires forall i :: 0 <= i < |g.samples| ==> g.samples[i] <= 1
    requires exists i :: 0 <= i < |g.samples| && g.samples[i] == 1
    ensures forall i :: 0 <= i < |g.samples| ==> Binarize(g).samples[i] == 255 * g.samples[i]
  {
  }

  /** In every branch a sample becomes 255 exactly when it was nonzero: the
      three-way decision agrees everywhere with the nonzero collapse. */
  lemma BinarizeIsNonzeroCollapse(g: Luma)
    ensures forall i :: 0 <= i < |g.samples| ==>
      Binarize(g).samples[i] == if g.samples[i] > 0 then 255 else 0
  {
    match Classify(g)
    case AlreadyBinary =>
    case ZeroOneLabels =>
      assert forall i :: 0 <= i < |g.samples| ==> g.samples[i] <= 1;
    case Multilevel =>
  }

  /** Binarising twice is binarising once. */
  lemma BinarizeIdempotent(g: Luma)
    ensures Binarize(Binarize(g)) == Binarize(g)
  {
    BinarizeKeepsBinary(Binarize(g));
  }

  /** After binarising, the distinct values are a subset of {0, 255}. */
  lemma BinarizedValues(g: Luma)
    ensures Values(Binarize(g)) <= {0, 255}
  {
  }

  /** A three-level mask {0, 128, 255}: 128 goes to 255. */
  lemma ThreeLevelExample()
    ensures Binarize(Gray(3, 1, [0, 128, 255])).samples == [0, 255, 255]
  {
    var g := Gray(3, 1, [0, 128, 255]);
    assert g.samples[1] == 128;
    BinarizeIsNonzeroCollapse(g);
  }

  /** The `--out-png` destination: the suffix is replaced by ".png" and "_mask"
      is appended to the stem unless it is already there. */
  function PngDestination(f: FileName): (d: FileName)
    ensures d.ext == ".png"
    ensures EndsWith(d.stem, MaskSuffix)
    ensures d.stem == f.stem || d.stem == f.stem + MaskSuffix
    ensures EndsWith(f.stem, MaskSuffix) ==> d.stem == f.stem
  {
    var dst := FileName(f.stem, ".png");
    if EndsWith(dst.stem, MaskSuffix) then dst
    else
      assert (dst.stem + MaskSuffix)[|dst.stem|..] == MaskSuffix;
      FileName(dst.stem + MaskSuffix, ".png")
  }

  /** A destination is its own destination: the suffix is never doubled. */
  lemma PngDestinationIdempotent(f: FileName)
    ensures PngDestination(PngDestination(f)) == PngDestination(f)
  {
  }

  /** What `process_mask_file` writes. */
  datatype MaskWrite =
    | NoWrite                                                     // dry run
    | WritePng(dst: FileName, pixels: Luma, removeOriginal: bool) // lossless PNG beside the original
    | Overwrite(dst: FileName, pixels: Luma)                      // lossy re-save under the same name

  /** The write decision for one mask file whose luma channel is `g`. A PNG
      written under a new name replaces the original, whose removal may fail
      silently. */
  function ProcessMaskFile(f: FileName, g: Luma, outPng: bool, dryRun: bool): (w: MaskWrite)
    ensures dryRun <==> w.NoWrite?
    ensures !w.NoWrite? ==> w.pixels.width == g.width && w.pixels.height == g.height
    ensures !w.NoWrite? ==>
      forall i :: 0 <= i < |w.pixels.samples| ==> w.pixels.samples[i] == 0 || w.pixels.samples[i] == 255
    ensures w.WritePng? ==> outPng && w.dst.ext == ".png" && EndsWith(w.dst.stem, MaskSuffix)
    ensures w.WritePng? ==> (w.removeOriginal <==> Name(w.dst) != Name(f))
    ensures w.Overwrite? ==> !outPng && w.dst == f
    ensures !w.NoWrite? ==> w.pixels == Binarize(g)
    ensures w.WritePng? ==> w.dst == PngDestination(f)
  {
    if dryRun then NoWrite
    else if outPng then
      var dst := PngDestination(f);
      WritePng(dst, Binarize(g), Name(dst) != Name(f))
    else Overwrite(f, Binarize(g))
  }

  /** A mask already named `<base>_mask.png` is rewritten in place and kept. */
  lemma PngMaskKeptInPlace(f: FileName, g: Luma)
    requires EndsWith(f.stem, MaskSuffix) && f.ext == ".png"
    ensures ProcessMaskFile(f, g, true, false) == WritePng(f, Binarize(g), false)
  {
  }

  /** Whether two names in one folder denote the same file. On a volume that
      ignores letter case, names that differ only in case do. */
  predicate SameEntry(a: FileName, b: FileName, caseInsensitive: bool)
  {
    if caseInsensitive then Lower(Name(a)) == Lower(Name(b)) else Name(a) == Name(b)
  }

  /** On a volume that ignores letter case, `--out-png` rewrites `x_mask.PNG`
      as `x_mask.png`: the same file under a different spelling. The resolved
      paths keep the spelling and so differ, and the mask just written is
      removed. */
  lemma CaseOnlyRenameRemovesWrittenMask(g: Luma)
    ensures ProcessMaskFile(FileName("x_mask", ".PNG"), g, true, false).WritePng?
    ensures ProcessMaskFile(FileName("x_mask", ".PNG"), g, true, false).removeOriginal
    ensures SameEntry(ProcessMaskFile(FileName("x_mask", ".PNG"), g, true, false).dst,
                      FileName("x_mask", ".PNG"), true)
  {
    var f := FileName("x_mask", ".PNG");
    var d := PngDestination(f);
    assert d == FileName("x_mask", ".png");
    assert Name(d) != Name(f) by { assert Name(d)[|Name(d)| - 3] != Name(f)[|Name(f)| - 3]; }
    assert Lower(Name(d)) == Lower(Name(f));
  }

  /** `process_mask_file` with the removal the comment at the unlink intends:
      the original goes only when the PNG is a different file on the volume. */
  function ProcessMaskFileOnVolume(f: FileName, g: Luma, outPng: bool, dryRun: bool, caseInsensitive: bool): (w: MaskWrite)
    ensures dryRun <==> w.NoWrite?
    ensures !w.NoWrite? ==> w.pixels == Binarize(g)
    ensures w.WritePng? ==> outPng && w.dst == PngDestination(f)
    ensures w.WritePng? ==> (w.removeOriginal <==> !SameEntry(w.dst, f, caseInsensitive))
    ensures w.Overwrite? ==> !outPng && w.dst == f
    ensures !caseInsensitive ==> w == ProcessMaskFile(f, g, outPng, dryRun)
  {
    match ProcessMaskFile(f, g, outPng, dryRun)
    case WritePng(dst, pixels, _) => WritePng(dst, pixels, !SameEntry(dst, f, caseInsensitive))
    case other => other
  }
}

=== FILE: gather.dfy ===
/** The split merger: every `data_<tag>` folder holds an images folder and a
    masks folder; each image is copied to `<tag>_<stem><ext>` and its mask, when
    one can be chosen, to `<tag>_<stem>_mask<ext>`. Images without a mask and
    masks that no image claimed are reported, never repaired. Copying is an
    abstract action: the model records the copies it would make. */
module Gather {
  import opened Seqs
  import opened Paths

  /** Extensions the merger accepts (compared in lower case); note: no ".webp". */
  const ImgExts: set<string> := {".jpg", ".jpeg", ".png", ".bmp", ".tif", ".tiff"}

  /** The order in which the strict mask lookup tries the extensions. The source
      iterates a set, whose order Python leaves open; this is one such order. */
  const StrictExtOrder: seq<string> := [".jpg", ".jpeg", ".png", ".bmp", ".tif", ".tiff"]

  /** The text that precedes the split tag in a split folder's name. */
  const SplitMarker: string := "data_"

  /** The strict lookup tries every accepted extension and nothing else. */
  lemma StrictExtOrderCoversImgExts()
    ensures forall e :: e in StrictExtOrder <==> e in ImgExts
  {
  }

  predicate HasImgExt(f: FileName)
  {
    Lower(f.ext) in ImgExts
  }

  function HasImgExtAt(): RelPath -> bool
  {
    (p: RelPath) => HasImgExt(p.file)
  }

  // ---------------------------------------------------------------------------
  // find_dir_exact_or_prefix

  predicate IsExactDir(n: Node, exact: string)
  {
    n.Dir? && n.name == exact
  }

  predicate IsPrefixDir(n: Node, prefix: string)
  {
    n.Dir? && StartsWith(Lower(n.name), Lower(prefix))
  }

  function ExactDir(exact: string): Node -> bool
  {
    (n: Node) => IsExactDir(n, exact)
  }

  function PrefixDir(prefix: string): Node -> bool
  {
    (n: Node) => IsPrefixDir(n, prefix)
  }

  /** The sub-directory named `exact` if there is one; otherwise the first
      sub-directory, in listing order, whose lower-cased name starts with the
      lower-cased `prefix`; otherwise none. */
  function FindDir(entries: seq<Node>, exact: string, prefix: string): (r: Option<Node>)
    ensures r.Some? ==> r.value in entries && r.value.Dir?
    ensures (exists i :: 0 <= i < |entries| && IsExactDir(entries[i], exact)) ==>
      r.Some? && r.value.name == exact
    ensures (forall i :: 0 <= i < |entries| ==> !IsExactDir(entries[i], exact)) ==>
      (r.None? <==> forall i :: 0 <= i < |entries| ==> !IsPrefixDir(entries[i], prefix))
    ensures (forall i :: 0 <= i < |entries| ==> !IsExactDir(entries[i], exact)) && r.Some? ==>
      exists k :: 0 <= k < |entries| && r.value == entries[k] && IsPrefixDir(entries[k], prefix)
        && forall j :: 0 <= j < k ==> !IsPrefixDir(entries[j], prefix)
  {
    match FindFirst(entries, ExactDir(exact))
    case Some(k) => Some(entries[k])
    case None =>
      match FindFirst(entries, PrefixDir(prefix))
      case Some(k) => Some(entries[k])
      case None => None
  }

  /** `find_dir_exact_or_prefix`: the exact lookup, then the prefix scan. */
  method FindDirExactOrPrefix(entries: seq<Node>, exact: string, prefix: string) returns (r: Option<Node>)
    ensures r == FindDir(entries, exact, prefix)
  {
    // the lookup of `base / exact` (a directory lists each name once)
    for i := 0 to |entries|
      invariant forall j :: 0 <= j < i ==> !IsExactDir(entries[j], exact)
    {
      if entries[i].Dir? && entries[i].name == exact {
        return Some(entries[i]);
      }
    }
    for i := 0 to |entries|
      invariant forall j :: 0 <= j < i ==> !IsPrefixDir(entries[j], prefix)
    {
      if entries[i].Dir? && StartsWith(Lower(entries[i].name), Lower(prefix)) {
        return Some(entries[i]);
      }
    }
    return None;
  }

  // ---------------------------------------------------------------------------
  // choose_mask_for

  /** Some file directly in the masks folder is named `<base>_mask<ext>`. */
  predicate StrictExists(base: string, top: seq<FileName>, ext: string)
  {
    exists f :: f in top && Name(f) == base + MaskSuffix + ext
  }

  /** The first extension of `exts` under which the strictly named mask
      exists. */
  function StrictLookup(base: string, top: seq<FileName>, exts: seq<string>): (r: Option<string>)
    ensures r.None? <==> forall e :: e in exts ==> !StrictExists(base, top, e)
    ensures r.Some? ==>
      exists k :: 0 <= k < |exts| && exts[k] == r.value && StrictExists(base, top, r.value)
                  && forall j :: 0 <= j < k ==> !StrictExists(base, top, exts[j])
    decreases |exts|
  {
    if exts == [] then None
    else if StrictExists(base, top, exts[0]) then Some(exts[0])
    else
      var r := StrictLookup(base, top, exts[1..]);
      assert forall e :: e in exts ==> e == exts[0] || e in exts[1..];
      if r.Some? then
        var k :| 0 <= k < |exts[1..]| && exts[1..][k] == r.value && StrictExists(base, top, r.value)
          && forall j :: 0 <= j < k ==> !StrictExists(base, top, exts[1..][j]);
        assert exts[k + 1] == r.value;
        r
      else r
  }

  /** The relaxed pattern: an accepted extension, a lower-cased stem that
      starts with the lower-cased base and contains "_mask". */
  predicate IsRelaxedCandidate(f: FileName, base: string)
  {
    HasImgExt(f) && StartsWith(Lower(f.stem), Lower(base)) && Contains(Lower(f.stem), MaskSuffix)
  }

  function RelaxedFor(base: string): FileName -> bool
  {
    (f: FileName) => IsRelaxedCandidate(f, base)
  }

  /** The candidates of the relaxed pattern, in listing order. */
  function RelaxedCandidates(base: string, top: seq<FileName>): seq<FileName>
  {
    Filter(top, RelaxedFor(base))
  }

  /** The outcome of the mask search for one image. `Unresolved` covers both no
      candidate and several candidates; the source returns None for both. */
  datatype MaskChoice = Strict(mask: FileName) | Relaxed(mask: FileName) | Unresolved(candidates: nat)

  /** The mask chosen for the image stem `base` among the files `top` that lie
      directly in the masks folder. */
  function ChooseMask(base: string, top: seq<FileName>): (c: MaskChoice)
    ensures c.Strict? <==> exists e :: e in ImgExts && StrictExists(base, top, e)
    ensures c.Strict? ==>
      c.mask.stem == base + MaskSuffix && c.mask.ext in ImgExts && StrictExists(base, top, c.mask.ext)
    ensures !c.Strict? ==> (c.Relaxed? <==> |RelaxedCandidates(base, top)| == 1)
    ensures c.Relaxed? ==> RelaxedCandidates(base, top) == [c.mask]
    ensures c.Unresolved? ==> c.candidates == |RelaxedCandidates(base, top)| && c.candidates != 1
  {
    StrictExtOrderCoversImgExts();
    match StrictLookup(base, top, StrictExtOrder)
    case Some(e) => Strict(FileName(base + MaskSuffix, e))
    case None =>
      var c := RelaxedCandidates(base, top);
      if |c| == 1 then Relaxed(c[0]) else Unresolved(|c|)
  }

  /** If a strictly named mask exists, it is the one chosen: the relaxed
      search is not even consulted. */
  lemma StrictWins(base: string, top: seq<FileName>, ext: string)
    requires ext in ImgExts && StrictExists(base, top, ext)
    ensures ChooseMask(base, top).Strict?
    ensures Name(ChooseMask(base, top).mask) in set f | f in top :: Name(f)
  {
    var c := ChooseMask(base, top);
    var f :| f in top && Name(f) == base + MaskSuffix + c.mask.ext;
    assert Name(c.mask) == Name(f);
  }

  /** Without a strict match, a file is chosen only when it is the one relaxed
      candidate; zero or several candidates choose nothing. */
  lemma RelaxedNeverGuesses(base: string, top: seq<FileName>)
    requires forall e :: e in ImgExts ==> !StrictExists(base, top, e)
    ensures ChooseMask(base, top).Relaxed? ==>
      ChooseMask(base, top).mask in top && IsRelaxedCandidate(ChooseMask(base, top).mask, base)
    ensures |RelaxedCandidates(base, top)| != 1 ==> ChooseMask(base, top).Unresolved?
  {
    var c := ChooseMask(base, top);
    if c.Relaxed? {
      assert c.mask in RelaxedCandidates(base, top);
    }
  }

  /** The relaxed pattern matches by prefix only: with no strict mask for
      image "C1_1", the mask of image "C1_10" is its one candidate and is
      chosen for it. */
  lemma RelaxedPrefixExample()
    ensures ChooseMask("C1_1", [FileName("C1_10_mask", ".png")]) == Relaxed(FileName("C1_10_mask", ".png"))
  {
    var f := FileName("C1_10_mask", ".png");
    var top := [f];
    forall e | e in ImgExts ensures !StrictExists("C1_1", top, e) {
      assert Name(f)[4] != ("C1_1" + MaskSuffix + e)[4];
    }
    assert Lower(f.ext) == ".png";
    var st := Lower(f.stem);
    assert st == "c1_10_mask";
    assert Lower("C1_1") == "c1_1";
    assert OccursAt(st, MaskSuffix, 5);
    assert IsRelaxedCandidate(f, "C1_1");
    assert RelaxedCandidates("C1_1", top) == Filter([], RelaxedFor("C1_1")) + [f];
  }

  /** `choose_mask_for`: the strict loop, then the relaxed loop that collects
      the candidates. */
  method ChooseMaskFor(base: string, top: seq<FileName>) returns (c: MaskChoice)
    ensures c == ChooseMask(base, top)
  {
    for i := 0 to |StrictExtOrder|
      invariant forall j :: 0 <= j < i ==> !StrictExists(base, top, StrictExtOrder[j])
    {
      var ext := StrictExtOrder[i];
      // `cand.exists()`
      if exists f | f in top :: Name(f) == base + MaskSuffix + ext {
        assert StrictExists(base, top, StrictExtOrder[i]);
        return Strict(FileName(base + MaskSuffix, ext));
      }
    }
    var candidates: seq<FileName> := [];
    for i := 0 to |top|
      invariant candidates == Filter(top[..i], RelaxedFor(base))
    {
      assert top[..i + 1][..i] == top[..i];
      var p := top[i];
      if HasImgExt(p) {
        var st := Lower(p.stem);
        if StartsWith(st, Lower(base)) && Contains(st, MaskSuffix) {
          candidates := candidates + [p];
        }
      }
    }
    assert top[..|top|] == top;
    if |candidates| == 1 {
      return Relaxed(candidates[0]);
    }
    return Unresolved(|candidates|);
  }

  // ---------------------------------------------------------------------------
  // process_split

  /** The last index at which `t` occurs in `s`. */
  function FindLast(s: string, t: string): (r: Option<nat>)
    requires |t| > 0
    ensures r.None? ==> !Contains(s, t)
    ensures r.Some? ==> OccursAt(s, t, r.value)
    ensures r.Some? ==> forall k :: r.value < k <= |s| - |t| ==> !OccursAt(s, t, k)
    decreases |s|
  {
    if |s| < |t| then None
    else if EndsWith(s, t) then Some(|s| - |t|)
    else
      var init := s[..|s| - 1];
      var r := FindLast(init, t);
      assert forall k :: 0 <= k && k + |t| <= |init| ==> (OccursAt(init, t, k) <==> OccursAt(s, t, k));
      assert !OccursAt(s, t, |s| - |t|);
      r
  }

  /** The split tag: `name.split("data_")[-1]`, the text after the last
      "data_" or the whole name when there is none. */
  function SplitTag(name: string): (tag: string)
    ensures EndsWith(name, tag)
    ensures !Contains(tag, SplitMarker)
    ensures tag == name || EndsWith(name[..|name| - |tag|], SplitMarker)
  {
    match FindLast(name, SplitMarker)
    case None => name
    case Some(k) =>
      var tag := name[k + |SplitMarker|..];
      assert forall j :: OccursAt(tag, SplitMarker, j) ==> OccursAt(name, SplitMarker, k + |SplitMarker| + j);
      assert name[..|name| - |tag|] == name[..k + |SplitMarker|];
      tag
  }

  /** "data_C1" is tagged "C1". */
  lemma SplitTagLower()
    ensures SplitTag("data_C1") == "C1"
  {
    var c1 := "data_C1";
    assert OccursAt(c1, SplitMarker, 0);
    assert !OccursAt(c1, SplitMarker, 1) by { assert c1[1] != SplitMarker[0]; }
    assert !OccursAt(c1, SplitMarker, 2) by { assert c1[2] != SplitMarker[0]; }
  }

  /** The tag split is case-sensitive: a folder "DATA_C2", which the
      case-insensitive folder selection admits, keeps its whole name as its
      tag. */
  lemma SplitTagUpper()
    ensures SplitTag("DATA_C2") == "DATA_C2"
  {
    var n := "DATA_C2";
    assert !OccursAt(n, SplitMarker, 0) by { assert n[0] != SplitMarker[0]; }
    assert !OccursAt(n, SplitMarker, 1) by { assert n[1] != SplitMarker[0]; }
    assert !OccursAt(n, SplitMarker, 2) by { assert n[2] != SplitMarker[0]; }
  }

  /** Where an image is copied: `<tag>_<stem><lower-cased ext>`. */
  function ImageDest(tag: string, img: FileName): string
  {
    tag + "_" + img.stem + Lower(img.ext)
  }

  /** Where its mask is copied: `<tag>_<image stem>_mask<lower-cased mask ext>`. */
  function MaskDest(tag: string, base: string, mask: FileName): string
  {
    tag + "_" + base + MaskSuffix + Lower(mask.ext)
  }

  /** A diagnostic entry `<tag>:<stem>`. */
  function Tagged(tag: string, stem: string): string
  {
    tag + ":" + stem
  }

  /** A copy the merger makes into the output image or mask folder. */
  datatype Copy = CopyImage(src: RelPath, dst: string) | CopyMask(src: RelPath, dst: string)

  /** The variables of the image loop of `process_split`. */
  datatype ImageLoop = ImageLoop(
    copiedImgs: nat, copiedMasks: nat, imgsWithoutMask: seq<string>,
    matchedMaskStems: set<string>, copies: seq<Copy>)

  /** The mask search of `process_split`, over the files directly in its
      masks folder. */
  function ChooserIn(top: seq<FileName>): string -> MaskChoice
  {
    (base: string) => ChooseMask(base, top)
  }

  /** The image loop after the images `images`: one image at a time, the
      image copied, its mask looked up, then copied or reported missing. */
  function CopyImages(tag: string, choose: string -> MaskChoice, dryRun: bool, images: seq<RelPath>): ImageLoop
    decreases |images|
  {
    if images == [] then ImageLoop(0, 0, [], {}, [])
    else
      var acc := CopyImages(tag, choose, dryRun, images[..|images| - 1]);
      var img := images[|images| - 1];
      var base := img.file.stem;
      var imgCopy := if dryRun then [] else [CopyImage(img, ImageDest(tag, img.file))];
      var choice := choose(base);
      if choice.Unresolved? then
        ImageLoop(acc.copiedImgs + 1, acc.copiedMasks, acc.imgsWithoutMask + [Tagged(tag, base)],
                  acc.matchedMaskStems, acc.copies + imgCopy)
      else
        var maskCopy := if dryRun then [] else [CopyMask(RelPath([], choice.mask), MaskDest(tag, base, choice.mask))];
        ImageLoop(acc.copiedImgs + 1, acc.copiedMasks + 1, acc.imgsWithoutMask,
                  acc.matchedMaskStems + {Lower(choice.mask.stem)}, acc.copies + imgCopy + maskCopy)
  }

  /** The images whose mask search finds a mask. */
  function Resolved(choose: string -> MaskChoice): RelPath -> bool
  {
    (p: RelPath) => !choose(p.file.stem).Unresolved?
  }

  /** The image loop counts every image once, counts a mask exactly for the
      images whose mask search resolves, and reports every other image
      missing; a dry run copies nothing, otherwise one copy is made per
      counted file. */
  lemma {:induction false} CopyImagesCounts(tag: string, choose: string -> MaskChoice, dryRun: bool, images: seq<RelPath>)
    ensures CopyImages(tag, choose, dryRun, images).copiedImgs == |images|
    ensures CopyImages(tag, choose, dryRun, images).copiedMasks == |Filter(images, Resolved(choose))|
    ensures CopyImages(tag, choose, dryRun, images).copiedMasks
            + |CopyImages(tag, choose, dryRun, images).imgsWithoutMask| == |images|
    ensures dryRun ==> CopyImages(tag, choose, dryRun, images).copies == []
    ensures !dryRun ==>
      |CopyImages(tag, choose, dryRun, images).copies| == |images| + CopyImages(tag, choose, dryRun, images).copiedMasks
    decreases |images|
  {
    if images != [] {
      CopyImagesCounts(tag, choose, dryRun, images[..|images| - 1]);
    }
  }

  /** One step of the image loop: what `CopyImages` adds for its last image. */
  lemma CopyImagesStep(tag: string, choose: string -> MaskChoice, dryRun: bool, images: seq<RelPath>)
    requires images != []
    ensures var acc := CopyImages(tag, choose, dryRun, images[..|images| - 1]);
      var base := images[|images| - 1].file.stem;
      var c := choose(base);
      var r := CopyImages(tag, choose, dryRun, images);
      && r.imgsWithoutMask == acc.imgsWithoutMask + (if c.Unresolved? then [Tagged(tag, base)] else [])
      && r.matchedMaskStems == acc.matchedMaskStems + (if c.Unresolved? then {} else {Lower(c.mask.stem)})
  {
  }

  /** The missing-mask list names exactly the images whose mask search is
      unresolved. */
  lemma {:induction false} CopyImagesMissing(tag: string, choose: string -> MaskChoice, dryRun: bool, images: seq<RelPath>, s: string)
    ensures s in CopyImages(tag, choose, dryRun, images).imgsWithoutMask <==>
      exists i :: 0 <= i < |images| && MissingAt(tag, choose, images, i, s)
    decreases |images|
  {
    if images != [] {
      var n := |images| - 1;
      var init := images[..n];
      var before := CopyImages(tag, choose, dryRun, init).imgsWithoutMask;
      var after := CopyImages(tag, choose, dryRun, images).imgsWithoutMask;
      CopyImagesMissing(tag, choose, dryRun, init, s);
      CopyImagesStep(tag, choose, dryRun, images);
      assert after == before + (if MissingAt(tag, choose, images, n, Tagged(tag, images[n].file.stem)) then [Tagged(tag, images[n].file.stem)] else []);
      assert forall i :: 0 <= i < n ==> (MissingAt(tag, choose, init, i, s) <==> MissingAt(tag, choose, images, i, s));
      if s in after {
        if s !in before {
          assert MissingAt(tag, choose, images, n, s);
        }
      } else {
        assert !MissingAt(tag, choose, images, n, s);
      }
    }
  }

  /** The image at index `i` has no mask and is reported as `s`. */
  predicate MissingAt(tag: string, choose: string -> MaskChoice, images: seq<RelPath>, i: nat, s: string)
    requires i < |images|
  {
    choose(images[i].file.stem).Unresolved? && s == Tagged(tag, images[i].file.stem)
  }

  /** The image at index `i` has a mask, whose lower-cased stem is `x`. */
  predicate MatchedAt(choose: string -> MaskChoice, images: seq<RelPath>, i: nat, x: string)
    requires i < |images|
  {
    !choose(images[i].file.stem).Unresolved? && x == Lower(choose(images[i].file.stem).mask.stem)
  }

  /** The matched set holds exactly the lower-cased stems of the masks chosen
      for some image. */
  lemma {:induction false} CopyImagesMatched(tag: string, choose: string -> MaskChoice, dryRun: bool, images: seq<RelPath>, x: string)
    ensures x in CopyImages(tag, choose, dryRun, images).matchedMaskStems <==>
      exists i :: 0 <= i < |images| && MatchedAt(choose, images, i, x)
    decreases |images|
  {
    if images != [] {
      var n := |images| - 1;
      var init := images[..n];
      CopyImagesMatched(tag, choose, dryRun, init, x);
      CopyImagesStep(tag, choose, dryRun, images);
      assert forall i :: 0 <= i < n ==> (MatchedAt(choose, init, i, x) <==> MatchedAt(choose, images, i, x));
      if x in CopyImages(tag, choose, dryRun, images).matchedMaskStems {
        if x !in CopyImages(tag, choose, dryRun, init).matchedMaskStems {
          assert MatchedAt(choose, images, n, x);
        }
      }
    }
  }

  /** Outside a dry run every image is copied to its tagged name, and every
      chosen mask to the tagged image stem with the mask suffix. */
  lemma {:induction false} CopyImagesDestinations(tag: string, choose: string -> MaskChoice, images: seq<RelPath>, i: nat)
    requires i < |images|
    ensures CopyImage(images[i], ImageDest(tag, images[i].file)) in CopyImages(tag, choose, false, images).copies
    ensures !choose(images[i].file.stem).Unresolved? ==>
      CopyMask(RelPath([], choose(images[i].file.stem).mask),
               MaskDest(tag, images[i].file.stem, choose(images[i].file.stem).mask))
        in CopyImages(tag, choose, false, images).copies
    decreases |images|
  {
    if i < |images| - 1 {
      var init := images[..|images| - 1];
      CopyImagesDestinations(tag, choose, init, i);
    }
  }

  /** A mask is extra when its lower-cased stem contains "_mask" and is not
      among the matched stems. */
  predicate IsExtraMask(m: RelPath, matched: set<string>)
  {
    Contains(Lower(m.file.stem), MaskSuffix) && Lower(m.file.stem) !in matched
  }

  /** The extra-mask list after the masks `masks`. */
  function ExtraMasks(tag: string, masks: seq<RelPath>, matched: set<string>): (r: seq<string>)
    ensures |r| == |Filter(masks, (m: RelPath) => IsExtraMask(m, matched))|
    ensures forall s :: s in r <==>
      exists j :: 0 <= j < |masks| && IsExtraMask(masks[j], matched) && s == Tagged(tag, masks[j].file.stem)
    decreases |masks|
  {
    if masks == [] then []
    else
      var init := masks[..|masks| - 1];
      var m := masks[|masks| - 1];
      assert forall j :: 0 <= j < |init| ==> init[j] == masks[j];
      ExtraMasks(tag, init, matched) + (if IsExtraMask(m, matched) then [Tagged(tag, m.file.stem)] else [])
  }

  datatype SplitResult = SplitResult(
    copiedImgs: nat, copiedMasks: nat,
    imgsWithoutMask: seq<string>, extraMasks: seq<string>,
    copies: seq<Copy>)

  const NoSplit := SplitResult(0, 0, [], [], [])

  /** The files `process_split` enumerates below a folder: any depth, accepted
      extension (hidden files are not excluded here). */
  function SplitFiles(folder: Node): seq<RelPath>
    requires folder.Dir?
  {
    Filter(Walk(folder.children), HasImgExtAt())
  }

  /** What `process_split` reports for the split folder `name` whose entries
      are `children`. */
  function SplitOutcome(name: string, children: seq<Node>, dryRun: bool): SplitResult
  {
    var tag := SplitTag(name);
    var imagesDir := FindDir(children, "images_" + tag, "images_");
    var masksDir := FindDir(children, "masks_" + tag, "masks_");
    if imagesDir.None? || masksDir.None? then NoSplit
    else
      var loop := CopyImages(tag, ChooserIn(TopFiles(masksDir.value.children)), dryRun, SplitFiles(imagesDir.value));
      SplitResult(loop.copiedImgs, loop.copiedMasks, loop.imgsWithoutMask,
                  ExtraMasks(tag, SplitFiles(masksDir.value), loop.matchedMaskStems), loop.copies)
  }

  /** The image loop of `process_split`. */
  method CopyImagesLoop(tag: string, top: seq<FileName>, dryRun: bool, images: seq<RelPath>) returns (acc: ImageLoop)
    ensures acc == CopyImages(tag, ChooserIn(top), dryRun, images)
  {
    var copiedImgs: nat, copiedMasks: nat := 0, 0;
    var imgsWithoutMask: seq<string> := [];
    var matchedMaskStems: set<string> := {};
    var copies: seq<Copy> := [];
    for i := 0 to |images|
      invariant ImageLoop(copiedImgs, copiedMasks, imgsWithoutMask, matchedMaskStems, copies)
                == CopyImages(tag, ChooserIn(top), dryRun, images[..i])
    {
      assert images[..i + 1][..i] == images[..i];
      var img := images[i];
      var base := img.file.stem;
      if !dryRun {
        copies := copies + [CopyImage(img, ImageDest(tag, img.file))];
      }
      copiedImgs := copiedImgs + 1;
      var choice := ChooseMaskFor(base, top);
      if choice.Unresolved? {
        imgsWithoutMask := imgsWithoutMask + [Tagged(tag, base)];
      } else {
        if !dryRun {
          copies := copies + [CopyMask(RelPath([], choice.mask), MaskDest(tag, base, choice.mask))];
        }
        copiedMasks := copiedMasks + 1;
        matchedMaskStems := matchedMaskStems + {Lower(choice.mask.stem)};
      }
    }
    assert images[..|images|] == images;
    acc := ImageLoop(copiedImgs, copiedMasks, imgsWithoutMask, matchedMaskStems, copies);
  }

  /** The extra-mask loop of `process_split`. */
  method ExtraMasksLoop(tag: string, masks: seq<RelPath>, matched: set<string>) returns (extra: seq<string>)
    ensures extra == ExtraMasks(tag, masks, matched)
  {
    extra := [];
    for j := 0 to |masks|
      invariant extra == ExtraMasks(tag, masks[..j], matched)
    {
      assert masks[..j + 1][..j] == masks[..j];
      var m := masks[j];
      if Contains(Lower(m.file.stem), MaskSuffix) && Lower(m.file.stem) !in matched {
        extra := extra + [Tagged(tag, m.file.stem)];
      }
    }
    assert masks[..|masks|] == masks;
  }

  /** `process_split`. */
  method ProcessSplit(name: string, children: seq<Node>, dryRun: bool) returns (r: SplitResult)
    ensures r == SplitOutcome(name, children, dryRun)
  {
    var tag := SplitTag(name);
    var imagesDir := FindDirExactOrPrefix(children, "images_" + tag, "images_");
    var masksDir := FindDirExactOrPrefix(children, "masks_" + tag, "masks_");
    if imagesDir.None? || masksDir.None? {
      return NoSplit;
    }
    var images := SplitFiles(imagesDir.value);
    var masks := SplitFiles(masksDir.value);
    var loop := CopyImagesLoop(tag, TopFiles(masksDir.value.children), dryRun, images);
    var extra := ExtraMasksLoop(tag, masks, loop.matchedMaskStems);
    r := SplitResult(loop.copiedImgs, loop.copiedMasks, loop.imgsWithoutMask, extra, loop.copies);
  }

  /** A split counts each enumerated image once, and each image has its mask
      copied or is listed missing; a split without both folders contributes
      nothing. */
  lemma SplitBalance(name: string, children: seq<Node>, dryRun: bool)
    ensures SplitOutcome(name, children, dryRun).copiedMasks
            + |SplitOutcome(name, children, dryRun).imgsWithoutMask|
            == SplitOutcome(name, children, dryRun).copiedImgs
    ensures dryRun ==> SplitOutcome(name, children, dryRun).copies == []
    ensures var tag := SplitTag(name);
      FindDir(children, "images_" + tag, "images_").None? || FindDir(children, "masks_" + tag, "masks_").None?
      ==> SplitOutcome(name, children, dryRun) == NoSplit
    ensures var tag := SplitTag(name);
      var imagesDir := FindDir(children, "images_" + tag, "images_");
      imagesDir.Some? && FindDir(children, "masks_" + tag, "masks_").Some?
      ==> SplitOutcome(name, children, dryRun).copiedImgs == |SplitFiles(imagesDir.value)|
  {
    var tag := SplitTag(name);
    var imagesDir := FindDir(children, "images_" + tag, "images_");
    var masksDir := FindDir(children, "masks_" + tag, "masks_");
    if imagesDir.Some? && masksDir.Some? {
      CopyImagesCounts(tag, ChooserIn(TopFiles(masksDir.value.children)), dryRun, SplitFiles(imagesDir.value));
    }
  }

  // ---------------------------------------------------------------------------
  // main: the run totals

  /** The folders `main` treats as splits: a lower-cased name starting "data_c". */
  predicate IsSplitDir(n: Node)
  {
    n.Dir? && StartsWith(Lower(n.name), "data_c")
  }

  function SplitDirs(root: seq<Node>): (r: seq<Node>)
    ensures forall n :: n in r <==> n in root && IsSplitDir(n)
  {
    Filter(root, IsSplitDir)
  }

  datatype Totals = Totals(images: nat, masks: nat, missing: seq<string>, extra: seq<string>, copies: seq<Copy>)

  /** The totals over the split results `rs`: sums of the counts,
      concatenations of the lists, in split order. */
  function SumSplits(rs: seq<SplitResult>): Totals
    decreases |rs|
  {
    if rs == [] then NoTotals else AddSplit(SumSplits(rs[..|rs| - 1]), rs[|rs| - 1])
  }

  const NoTotals := Totals(0, 0, [], [], [])

  /** One iteration of the loop of `main`: the split's counts are added and
      its lists appended. */
  function AddSplit(t: Totals, r: SplitResult): Totals
  {
    Totals(t.images + r.copiedImgs, t.masks + r.copiedMasks,
           t.missing + r.imgsWithoutMask, t.extra + r.extraMasks, t.copies + r.copies)
  }

  /** What `process_split` reports for each split folder, in order. */
  function SplitOutcomes(splits: seq<Node>, dryRun: bool): (rs: seq<SplitResult>)
    requires forall n :: n in splits ==> n.Dir?
    ensures |rs| == |splits|
    decreases |splits|
  {
    if splits == [] then []
    else
      var d := splits[|splits| - 1];
      SplitOutcomes(splits[..|splits| - 1], dryRun) + [SplitOutcome(d.name, d.children, dryRun)]
  }

  /** A split result in which every copied image has its mask copied or is
      listed missing, and nothing is copied on a dry run. */
  predicate Balanced(r: SplitResult, dryRun: bool)
  {
    r.copiedMasks + |r.imgsWithoutMask| == r.copiedImgs && (dryRun ==> r.copies == [])
  }

  /** Balanced splits add up to balanced totals. */
  lemma {:induction false} SumSplitsBalance(rs: seq<SplitResult>, dryRun: bool)
    requires forall i :: 0 <= i < |rs| ==> Balanced(rs[i], dryRun)
    ensures SumSplits(rs).masks + |SumSplits(rs).missing| == SumSplits(rs).images
    ensures dryRun ==> SumSplits(rs).copies == []
    decreases |rs|
  {
    if rs != [] {
      SumSplitsBalance(rs[..|rs| - 1], dryRun);
    }
  }

  /** Over the whole run, every copied image has its mask copied or is listed
      missing, and a dry run copies nothing. */
  lemma RunBalance(root: seq<Node>, dryRun: bool)
    ensures var t := SumSplits(SplitOutcomes(SplitDirs(root), dryRun));
      t.masks + |t.missing| == t.images && (dryRun ==> t.copies == [])
  {
    var rs := SplitOutcomes(SplitDirs(root), dryRun);
    OutcomesBalanced(SplitDirs(root), dryRun);
    SumSplitsBalance(rs, dryRun);
  }

  /** Each split's outcome is balanced. */
  lemma {:induction false} OutcomesBalanced(splits: seq<Node>, dryRun: bool)
    requires forall n :: n in splits ==> n.Dir?
    ensures forall i :: 0 <= i < |splits| ==> Balanced(SplitOutcomes(splits, dryRun)[i], dryRun)
    decreases |splits|
  {
    if splits != [] {
      var init, d := splits[..|splits| - 1], splits[|splits| - 1];
      assert forall n :: n in init ==> n in splits;
      OutcomesBalanced(init, dryRun);
      SplitBalance(d.name, d.children, dryRun);
      assert Balanced(SplitOutcome(d.name, d.children, dryRun), dryRun);
    }
  }

  /** Appending a split appends its outcome. */
  lemma SplitOutcomesSnoc(splits: seq<Node>, i: nat, dryRun: bool)
    requires forall n :: n in splits ==> n.Dir?
    requires i < |splits|
    ensures forall n :: n in splits[..i] ==> n.Dir?
    ensures forall n :: n in splits[..i + 1] ==> n.Dir?
    ensures SplitOutcomes(splits[..i + 1], dryRun)
            == SplitOutcomes(splits[..i], dryRun) + [SplitOutcome(splits[i].name, splits[i].children, dryRun)]
  {
    assert forall n :: n in splits[..i + 1] ==> n in splits;
    assert splits[..i + 1][..i] == splits[..i];
  }

  /** Adding one more split result to the totals. */
  lemma SumSplitsSnoc(rs: seq<SplitResult>, r: SplitResult)
    ensures SumSplits(rs + [r]) == AddSplit(SumSplits(rs), r)
  {
    assert (rs + [r])[..|rs|] == rs;
  }

  /** The loop of `main` over the split folders. */
  method SumSplitsLoop(splits: seq<Node>, dryRun: bool) returns (t: Totals)
    requires forall n :: n in splits ==> n.Dir?
    ensures t == SumSplits(SplitOutcomes(splits, dryRun))
  {
    t := NoTotals;
    for i := 0 to |splits|
      invariant forall n :: n in splits[..i] ==> n.Dir?
      invariant t == SumSplits(SplitOutcomes(splits[..i], dryRun))
    {
      var d := splits[i];
      var r := ProcessSplit(d.name, d.children, dryRun);
      SplitOutcomesSnoc(splits, i, dryRun);
      SumSplitsSnoc(SplitOutcomes(splits[..i], dryRun), r);
      t := AddSplit(t, r);
    }
    assert splits[..|splits|] == splits;
  }

  /** `main` after argument parsing: None when the root holds no split folder,
      otherwise the totals over the split folders in listing order. */
  method GatherAll(root: seq<Node>, dryRun: bool) returns (t: Option<Totals>)
    ensures t.None? <==> forall n :: n in root ==> !IsSplitDir(n)
    ensures t.Some? ==> t.value == SumSplits(SplitOutcomes(SplitDirs(root), dryRun))
  {
    var splits := SplitDirs(root);
    if splits == [] {
      return None;
    }
    assert splits[0] in root && IsSplitDir(splits[0]);
    var totals := SumSplitsLoop(splits, dryRun);
    t := Some(totals);
  }
}

=== FILE: paths.dfy ===
/** File names, directory trees and the string tests the scripts apply to them.

    A file name is kept already split into its stem and its final suffix (the
    suffix keeps its leading dot, and is "" when there is none), the two parts a
    path's `stem` and `suffix` give. A directory is the list of its entries in
    listing order; a sub-directory is an entry with its own list. */
module Paths {
  import opened Seqs

  datatype FileName = FileName(stem: string, ext: string)

  /** A file entry or a directory entry with its children, in listing order. */
  datatype Node = File(file: FileName) | Dir(name: string, children: seq<Node>)

  /** A file below some root: the directories on the way down, then its name. */
  datatype RelPath = RelPath(dirs: seq<string>, file: FileName)

  /** The reserved token that marks a mask's stem; every script uses "_mask". */
  const MaskSuffix: string := "_mask"

  function Name(f: FileName): string
  {
    f.stem + f.ext
  }

  /** A hidden file: its whole name starts with a dot. */
  predicate IsHidden(f: FileName)
  {
    StartsWith(Name(f), ".")
  }

  /** Lower case of one character, ASCII letters only. */
  function LowerChar(c: char): char
  {
    if 'A' <= c <= 'Z' then (c as int - 'A' as int + 'a' as int) as char else c
  }

  function Lower(s: string): string
  {
    seq(|s|, i requires 0 <= i < |s| => LowerChar(s[i]))
  }

  predicate StartsWith(s: string, prefix: string)
  {
    |prefix| <= |s| && s[..|prefix|] == prefix
  }

  predicate EndsWith(s: string, suffix: string)
  {
    |suffix| <= |s| && s[|s| - |suffix|..] == suffix
  }

  /** `t` occurs in `s` starting at index `k`. */
  predicate OccursAt(s: string, t: string, k: int)
  {
    0 <= k && k + |t| <= |s| && s[k..k + |t|] == t
  }

  /** Substring test (`t in s` on strings). */
  predicate Contains(s: string, t: string)
  {
    exists k :: 0 <= k <= |s| - |t| && OccursAt(s, t, k)
  }

  /** A stem that carries the mask suffix, with the suffix removed. */
  function StripMaskSuffix(stem: string): (base: string)
    requires EndsWith(stem, MaskSuffix)
    ensures base + MaskSuffix == stem
    ensures |base| + |MaskSuffix| == |stem|
  {
    stem[..|stem| - |MaskSuffix|]
  }

  /** Stripping is the inverse of appending the suffix. */
  lemma StripAppended(base: string)
    ensures EndsWith(base + MaskSuffix, MaskSuffix)
    ensures StripMaskSuffix(base + MaskSuffix) == base
  {
    assert (base + MaskSuffix)[..|base|] == base;
  }

  /** Every file at any depth below a directory, as a recursive glob of "*"
      filtered to regular files yields it: a directory's own files come first,
      in listing order, and then, sub-directory by sub-directory in listing
      order, everything below each of them. */
  function Walk(ns: seq<Node>): (r: seq<RelPath>)
    ensures forall f :: RelPath([], f) in r <==> File(f) in ns
    ensures forall i, j :: 0 <= i < j < |r| && r[i].dirs != [] ==> r[j].dirs != []
    decreases ns, 1
  {
    var here, below := FilesHere(ns), WalkBelow(ns);
    assert forall k :: 0 <= k < |here + below| ==> ((here + below)[k].dirs != [] <==> k >= |here|);
    here + below
  }

  /** The regular files directly inside a directory, as paths from it. */
  function FilesHere(ns: seq<Node>): (r: seq<RelPath>)
    ensures forall p :: p in r ==> p.dirs == []
    ensures forall f :: RelPath([], f) in r <==> File(f) in ns
  {
    if ns == [] then []
    else (if ns[0].File? then [RelPath([], ns[0].file)] else []) + FilesHere(ns[1..])
  }

  /** Everything below the sub-directories of a directory, one after another. */
  function WalkBelow(ns: seq<Node>): (r: seq<RelPath>)
    ensures forall p :: p in r ==> p.dirs != []
    decreases ns, 0
  {
    if ns == [] then []
    else
      var head := match ns[0]
        case File(_) => []
        case Dir(n, cs) => Under(n, Walk(cs));
      head + WalkBelow(ns[1..])
  }

  /** A file listed after a sub-directory still comes before the files below
      that sub-directory. */
  lemma WalkOrderExample()
    ensures Walk([Dir("sub", [File(FileName("a", ".png"))]), File(FileName("b", ".png"))])
            == [RelPath([], FileName("b", ".png")), RelPath(["sub"], FileName("a", ".png"))]
  {
    var inner := [File(FileName("a", ".png"))];
    var ns := [Dir("sub", inner), File(FileName("b", ".png"))];
    assert ns[1..][1..] == [];
    assert inner[1..] == [];
    assert Walk(inner) == [RelPath([], FileName("a", ".png"))];
    assert FilesHere(ns) == [RelPath([], FileName("b", ".png"))];
    assert WalkBelow(ns[1..]) == [];
    assert ["sub"] + [] == ["sub"];
    assert |Under("sub", Walk(inner))| == 1;
    assert Under("sub", Walk(inner)) == [RelPath(["sub"], FileName("a", ".png"))];
    assert WalkBelow(ns) == [RelPath(["sub"], FileName("a", ".png"))];
  }

  /** The same paths one directory further down. */
  function Under(dir: string, ps: seq<RelPath>): seq<RelPath>
  {
    seq(|ps|, i requires 0 <= i < |ps| => RelPath([dir] + ps[i].dirs, ps[i].file))
  }

  /** The regular files directly inside a directory (not below it). */
  function TopFiles(ns: seq<Node>): (r: seq<FileName>)
    ensures forall f :: f in r <==> File(f) in ns
    decreases |ns|
  {
    if ns == [] then []
    else TopFiles(ns[..|ns| - 1]) + (if ns[|ns| - 1].File? then [ns[|ns| - 1].file] else [])
  }
}

=== FILE: prune.dfy ===
/** The pair pruner: enumerates an images folder and a masks folder, pairs
    `<base>.<ext>` with `<base>_mask.<ext>` by exact, case-sensitive stem, and
    deletes (or, in a dry run, only lists) every file without a partner. */
module Prune {
  import opened Seqs
  import opened Paths

  /** Extensions the pruner enumerates (compared in lower case). */
  const ImgExts: set<string> := {".jpg", ".jpeg", ".png", ".bmp", ".tif", ".tiff", ".webp"}

  /** The filter of `iter_media_files`. */
  predicate IsMediaFile(p: RelPath)
  {
    Lower(p.file.ext) in ImgExts && !IsHidden(p.file)
  }

  /** `iter_media_files`: the files below a folder that the pruner looks at. */
  function MediaFiles(root: seq<Node>): (r: seq<RelPath>)
    ensures forall p :: p in r <==> p in Walk(root) && Lower(p.file.ext) in ImgExts && !IsHidden(p.file)
    ensures Subsequence(r, Walk(root))
  {
    FilterIsSubsequence(Walk(root), IsMediaFile);
    Filter(Walk(root), IsMediaFile)
  }

  /** `image_bases`: the stems of the images. */
  function ImageBases(images: seq<RelPath>): set<string>
  {
    set p | p in images :: p.file.stem
  }

  /** `mask_bases`: the stems that carry the mask suffix, with it removed. */
  function MaskBases(masks: seq<RelPath>): set<string>
  {
    set p | p in masks && EndsWith(p.file.stem, MaskSuffix) :: StripMaskSuffix(p.file.stem)
  }

  /** Appending the suffix is injective. */
  lemma AppendSuffixInjective(a: string, b: string)
    requires a + MaskSuffix == b + MaskSuffix
    ensures a == b
  {
    assert a == (a + MaskSuffix)[..|a|];
    assert b == (b + MaskSuffix)[..|b|];
  }

  /** A root is in `mask_bases` exactly when some mask is named after it with
      the suffix appended; masks without the suffix contribute nothing. */
  lemma {:induction false} MaskBasesExactly(masks: seq<RelPath>, b: string)
    ensures b in MaskBases(masks) <==> exists p :: p in masks && p.file.stem == b + MaskSuffix
  {
    if b in MaskBases(masks) {
      var p :| p in masks && EndsWith(p.file.stem, MaskSuffix) && StripMaskSuffix(p.file.stem) == b;
      assert p.file.stem == b + MaskSuffix;
    }
    if exists p :: p in masks && p.file.stem == b + MaskSuffix {
      var p :| p in masks && p.file.stem == b + MaskSuffix;
      StripAppended(b);
    }
  }

  /** One more mask adds its root, if it has one, and nothing else. */
  lemma MaskBasesSnoc(masks: seq<RelPath>, m: RelPath)
    ensures MaskBases(masks + [m]) ==
      MaskBases(masks) + (if EndsWith(m.file.stem, MaskSuffix) then {StripMaskSuffix(m.file.stem)} else {})
  {
    assert forall p :: p in masks + [m] <==> p in masks || p == m;
  }

  /** The loop of `compute_bases` that builds the mask bases. */
  method CollectMaskBases(masks: seq<RelPath>) returns (maskBases: set<string>)
    ensures maskBases == MaskBases(masks)
  {
    maskBases := {};
    for i := 0 to |masks|
      invariant maskBases == MaskBases(masks[..i])
    {
      var stem := masks[i].file.stem;
      assert masks[..i + 1] == masks[..i] + [masks[i]];
      MaskBasesSnoc(masks[..i], masks[i]);
      if EndsWith(stem, MaskSuffix) {
        maskBases := maskBases + {StripMaskSuffix(stem)};
      }
    }
    assert masks[..|masks|] == masks;
  }

  /** `compute_bases`: the two enumerations and the two base sets. */
  method ComputeBases(imgRoot: seq<Node>, maskRoot: seq<Node>)
    returns (imageBases: set<string>, maskBases: set<string>, images: seq<RelPath>, masks: seq<RelPath>)
    ensures images == MediaFiles(imgRoot) && masks == MediaFiles(maskRoot)
    ensures imageBases == ImageBases(images)
    ensures maskBases == MaskBases(masks)
    ensures forall b :: b in maskBases <==> exists p :: p in masks && p.file.stem == b + MaskSuffix
  {
    images := MediaFiles(imgRoot);
    masks := MediaFiles(maskRoot);
    imageBases := ImageBases(images);
    maskBases := CollectMaskBases(masks);
    forall b ensures b in maskBases <==> exists p :: p in masks && p.file.stem == b + MaskSuffix {
      MaskBasesExactly(masks, b);
    }
  }

  /** The test of line 53: the image's stem is no mask's root. */
  function StemNotIn(maskBases: set<string>): RelPath -> bool
  {
    (p: RelPath) => p.file.stem !in maskBases
  }

  /** `unpaired_images`, in enumeration order. */
  function UnpairedImages(images: seq<RelPath>, maskBases: set<string>): (r: seq<RelPath>)
    ensures forall p :: p in r <==> p in images && p.file.stem !in maskBases
    ensures Subsequence(r, images)
  {
    FilterIsSubsequence(images, StemNotIn(maskBases));
    Filter(images, StemNotIn(maskBases))
  }

  /** A mask is unpaired when its stem lacks the suffix or its root is no
      image's stem. */
  predicate MaskIsUnpaired(p: RelPath, imageBases: set<string>)
  {
    !EndsWith(p.file.stem, MaskSuffix) || StripMaskSuffix(p.file.stem) !in imageBases
  }

  function MaskUnpairedIn(imageBases: set<string>): RelPath -> bool
  {
    (p: RelPath) => MaskIsUnpaired(p, imageBases)
  }

  /** `unpaired_masks`, in enumeration order. */
  function UnpairedMasks(masks: seq<RelPath>, imageBases: set<string>): seq<RelPath>
  {
    Filter(masks, MaskUnpairedIn(imageBases))
  }

  /** The loop of lines 56-65 that collects the unpaired masks. */
  method ClassifyMasks(masks: seq<RelPath>, imageBases: set<string>) returns (unpaired: seq<RelPath>)
    ensures unpaired == UnpairedMasks(masks, imageBases)
    ensures forall p :: p in unpaired <==>
      p in masks && (!EndsWith(p.file.stem, MaskSuffix) || StripMaskSuffix(p.file.stem) !in imageBases)
    ensures Subsequence(unpaired, masks)
  {
    unpaired := [];
    for i := 0 to |masks|
      invariant unpaired == Filter(masks[..i], MaskUnpairedIn(imageBases))
    {
      assert masks[..i + 1][..i] == masks[..i];
      var stem := masks[i].file.stem;
      if !EndsWith(stem, MaskSuffix) {
        unpaired := unpaired + [masks[i]];
        continue;
      }
      var base := StripMaskSuffix(stem);
      if base !in imageBases {
        unpaired := unpaired + [masks[i]];
      }
    }
    assert masks[..|masks|] == masks;
    FilterIsSubsequence(masks, MaskUnpairedIn(imageBases));
  }

  /** A mask whose stem lacks the suffix is unpaired whatever the images are. */
  lemma SuffixlessMaskUnpaired(masks: seq<RelPath>, p: RelPath, imageBases: set<string>)
    requires p in masks && !EndsWith(p.file.stem, MaskSuffix)
    ensures p in UnpairedMasks(masks, imageBases)
  {
  }

  /** A suffixed mask is unpaired exactly when its root is no image's stem. */
  lemma SuffixedMaskUnpaired(masks: seq<RelPath>, p: RelPath, imageBases: set<string>)
    requires p in masks && EndsWith(p.file.stem, MaskSuffix)
    ensures p in UnpairedMasks(masks, imageBases) <==> StripMaskSuffix(p.file.stem) !in imageBases
  {
  }

  /** The files of a list that a deletion list does not name. */
  function NotListed(removed: seq<RelPath>): RelPath -> bool
  {
    (p: RelPath) => p !in removed
  }

  function Remaining(files: seq<RelPath>, removed: seq<RelPath>): seq<RelPath>
  {
    Filter(files, NotListed(removed))
  }

  /** The pairing invariant: once the unpaired files are gone, the surviving
      image stems and the surviving mask roots are both exactly the stems that
      have both an image and a mask, and every surviving mask carries the
      suffix. */
  lemma {:induction false} PruneLeavesExactPairs(images: seq<RelPath>, masks: seq<RelPath>)
    ensures ImageBases(Remaining(images, UnpairedImages(images, MaskBases(masks))))
            == ImageBases(images) * MaskBases(masks)
    ensures MaskBases(Remaining(masks, UnpairedMasks(masks, ImageBases(images))))
            == ImageBases(images) * MaskBases(masks)
    ensures forall p :: p in Remaining(masks, UnpairedMasks(masks, ImageBases(images))) ==>
              EndsWith(p.file.stem, MaskSuffix)
  {
    var ib, mb := ImageBases(images), MaskBases(masks);
    var keptImages := Remaining(images, UnpairedImages(images, mb));
    var unpairedMasks := UnpairedMasks(masks, ib);
    var keptMasks := Remaining(masks, unpairedMasks);
    assert forall p :: p in keptImages <==> p in images && p.file.stem in mb;
    assert forall p :: p in keptMasks <==> p in masks && !MaskIsUnpaired(p, ib);
    forall b ensures b in ImageBases(keptImages) <==> b in ib * mb {
      if b in ib * mb {
        var p :| p in images && p.file.stem == b;
        assert p in keptImages;
      }
    }
    forall b ensures b in MaskBases(keptMasks) <==> b in ib * mb {
      MaskBasesExactly(keptMasks, b);
      MaskBasesExactly(masks, b);
      if b in MaskBases(keptMasks) {
        var p :| p in keptMasks && p.file.stem == b + MaskSuffix;
        StripAppended(b);
      }
      if b in ib * mb {
        var p :| p in masks && p.file.stem == b + MaskSuffix;
        StripAppended(b);
        assert p in keptMasks;
      }
    }
  }

  /** Which folder a deletion target lives in; the two folders are distinct. */
  datatype Folder = ImagesFolder | MasksFolder

  datatype Target = Target(folder: Folder, path: RelPath)

  /** The deletion list of line 89: unpaired images, then unpaired masks. */
  function Targets(unpairedImages: seq<RelPath>, unpairedMasks: seq<RelPath>): (t: seq<Target>)
    ensures |t| == |unpairedImages| + |unpairedMasks|
  {
    seq(|unpairedImages|, i requires 0 <= i < |unpairedImages| => Target(ImagesFolder, unpairedImages[i]))
    + seq(|unpairedMasks|, i requires 0 <= i < |unpairedMasks| => Target(MasksFolder, unpairedMasks[i]))
  }

  /** The deletion list names each unpaired image and each unpaired mask in
      its own folder, so no file is on it as both. */
  lemma TargetsSplit(unpairedImages: seq<RelPath>, unpairedMasks: seq<RelPath>, t: Target)
    ensures t in Targets(unpairedImages, unpairedMasks) <==>
      (t.folder == ImagesFolder && t.path in unpairedImages) || (t.folder == MasksFolder && t.path in unpairedMasks)
  {
    var ti := seq(|unpairedImages|, i requires 0 <= i < |unpairedImages| => Target(ImagesFolder, unpairedImages[i]));
    var tm := seq(|unpairedMasks|, i requires 0 <= i < |unpairedMasks| => Target(MasksFolder, unpairedMasks[i]));
    assert Targets(unpairedImages, unpairedMasks) == ti + tm;
    if t.folder == ImagesFolder && t.path in unpairedImages {
      var i :| 0 <= i < |unpairedImages| && unpairedImages[i] == t.path;
      assert ti[i] == t;
    }
    if t.folder == MasksFolder && t.path in unpairedMasks {
      var i :| 0 <= i < |unpairedMasks| && unpairedMasks[i] == t.path;
      assert tm[i] == t;
    }
  }

  /** The files on disk under the two folders. `locked` are the files whose
      removal raises (permissions, a file held open): a stand-in for the
      failures the delete loop catches. */
  class Disk {
    var files: set<Target>
    const locked: set<Target>

    constructor (files: set<Target>, locked: set<Target>)
      ensures this.files == files && this.locked == locked
    {
      this.files := files;
      this.locked := locked;
    }

    /** Remove one file; `ok` is false when it raised. */
    method Unlink(t: Target) returns (ok: bool)
      modifies this
      ensures ok <==> t in old(files) && t !in locked
      ensures files == if ok then old(files) - {t} else old(files)
    {
      ok := t in files && t !in locked;
      if ok {
        files := files - {t};
      }
    }
  }

  /** The delete loop of lines 88-94: a failed removal is skipped and the loop
      goes on; `deleted` counts the files that were actually removed. */
  method DeleteAll(disk: Disk, targets: seq<Target>) returns (deleted: nat)
    modifies disk
    ensures deleted <= |targets|
    ensures disk.files == old(disk.files) - (set t | t in targets && t !in disk.locked)
    ensures deleted == |old(disk.files) - disk.files|
  {
    deleted := 0;
    for i := 0 to |targets|
      invariant deleted <= i
      invariant disk.files <= old(disk.files)
      invariant disk.files == old(disk.files) - (set t | t in targets[..i] && t !in disk.locked)
      invariant deleted == |old(disk.files) - disk.files|
    {
      ghost var before := disk.files;
      ghost var gone := old(disk.files) - before;
      var ok := disk.Unlink(targets[i]);
      assert targets[..i + 1] == targets[..i] + [targets[i]];
      if ok {
        assert old(disk.files) - disk.files == gone + {targets[i]};
        assert targets[i] !in gone;
        deleted := deleted + 1;
      }
    }
    assert targets[..|targets|] == targets;
  }

  datatype PruneReport = PruneReport(
    imagesFound: nat, masksFound: nat,
    unpairedImages: seq<RelPath>, unpairedMasks: seq<RelPath>,
    deleted: nat)

  /** `main` after argument checking: classify, then delete unless dry run. */
  method PruneRun(disk: Disk, imgRoot: seq<Node>, maskRoot: seq<Node>, dryRun: bool) returns (r: PruneReport)
    modifies disk
    ensures r.imagesFound == |MediaFiles(imgRoot)| && r.masksFound == |MediaFiles(maskRoot)|
    ensures r.unpairedImages == UnpairedImages(MediaFiles(imgRoot), MaskBases(MediaFiles(maskRoot)))
    ensures r.unpairedMasks == UnpairedMasks(MediaFiles(maskRoot), ImageBases(MediaFiles(imgRoot)))
    ensures dryRun ==> r.deleted == 0 && disk.files == old(disk.files)
    ensures !dryRun ==>
      disk.files == old(disk.files)
        - (set t | t in Targets(r.unpairedImages, r.unpairedMasks) && t !in disk.locked)
    ensures r.deleted == |old(disk.files) - disk.files|
    ensures r.deleted <= |r.unpairedImages| + |r.unpairedMasks|
  {
    var imageBases, maskBases, images, masks := ComputeBases(imgRoot, maskRoot);
    var unpairedImages := UnpairedImages(images, maskBases);
    var unpairedMasks := ClassifyMasks(masks, imageBases);
    var deleted := 0;
    if !dryRun {
      deleted := DeleteAll(disk, Targets(unpairedImages, unpairedMasks));
    }
    r := PruneReport(|images|, |masks|, unpairedImages, unpairedMasks, deleted);
  }

  /** Two images C1_100H0001 and C1_100H0002 with only C1_100H0001_mask.png:
      one unpaired image (the second), no unpaired mask. */
  lemma PairingExample()
    ensures var images := [RelPath([], FileName("C1_100H0001", ".png")),
                           RelPath([], FileName("C1_100H0002", ".png"))];
            var masks := [RelPath([], FileName("C1_100H0001_mask", ".png"))];
            UnpairedImages(images, MaskBases(masks)) == [images[1]]
            && UnpairedMasks(masks, ImageBases(images)) == []
  {
    var images := [RelPath([], FileName("C1_100H0001", ".png")),
                   RelPath([], FileName("C1_100H0002", ".png"))];
    var masks := [RelPath([], FileName("C1_100H0001_mask", ".png"))];
    MaskBasesExactly(masks, "C1_100H0001");
    assert "C1_100H0001" + MaskSuffix == "C1_100H0001_mask";
    assert "C1_100H0001" in MaskBases(masks);
    forall b | b in MaskBases(masks) ensures b == "C1_100H0001" {
      MaskBasesExactly(masks, b);
      AppendSuffixInjective(b, "C1_100H0001");
    }
    assert "C1_100H0002" !in MaskBases(masks);
    var u := UnpairedImages(images, MaskBases(masks));
    assert images[..1][..0] == [];
    assert u == Filter(images[..1], StemNotIn(MaskBases(masks))) + [images[1]];
    assert Filter(images[..1], StemNotIn(MaskBases(masks))) == [];
    StripAppended("C1_100H0001");
    assert StripMaskSuffix(masks[0].file.stem) in ImageBases(images);
  }
}

=== FILE: resize.dfy ===
/** The resizer: brings every image or mask below a folder to a square target
    size, either by stretching or by scaling with the aspect ratio kept and
    centring the result on a zero-filled canvas. The resampling kernel is
    abstract: the scaled pixel buffer is an input. */
module Resize {
  import opened Seqs
  import opened Paths
  import Prune
  import Gather
  import FixMasks

  /** Extensions the resizer accepts (compared in lower case). */
  const ImgExts: set<string> := {".jpg", ".jpeg", ".png", ".bmp", ".tif", ".tiff", ".webp"}

  /** `is_image_file`: an accepted extension and a name without a leading dot. */
  predicate IsImageFile(f: FileName)
  {
    Lower(f.ext) in ImgExts && !IsHidden(f)
  }

  /** The resizer and the pruner enumerate the same files. */
  lemma ImageFileIsMediaFile(p: RelPath)
    ensures IsImageFile(p.file) <==> Prune.IsMediaFile(p)
  {
  }

  /** The allow-lists differ between the scripts: a ".webp" image is resized
      but never merged, and a hidden mask is binarised but never resized. */
  lemma AllowListsDiffer(stem: string)
    ensures IsImageFile(FileName("a" + stem, ".webp"))
    ensures !Gather.HasImgExt(FileName("a" + stem, ".webp"))
    ensures FixMasks.IsMaskFile(FileName("." + stem, ".png"))
    ensures !IsImageFile(FileName("." + stem, ".png"))
  {
    assert Lower(".webp") == ".webp";
    assert Lower(".png") == ".png";
    assert ("a" + stem + ".webp")[..1] == "a";
    assert ("." + stem + ".png")[..1] == ".";
  }

  // ---------------------------------------------------------------------------
  // resize_keep_aspect: the geometry

  /** A target side: `--size` is taken to be positive. */
  type Side = x: int | x > 0 witness 1

  /** Python's `round` on a real: the nearest integer, ties to the even one.
      The source rounds an IEEE double; here the product is exact. */
  function RoundHalfEven(x: real): (n: int)
    ensures x - 0.5 <= n as real <= x + 0.5
    ensures (n as real == x - 0.5 || n as real == x + 0.5) ==> n % 2 == 0
  {
    var f := x.Floor;
    var d := x - f as real;
    if d < 0.5 then f
    else if d > 0.5 then f + 1
    else if f % 2 == 0 then f else f + 1
  }

  /** Rounding never leaves the integers between which its argument lies. */
  lemma RoundBetween(x: real, lo: int, hi: int)
    requires lo as real <= x <= hi as real
    ensures lo <= RoundHalfEven(x) <= hi
  {
  }

  lemma RoundInt(k: int)
    ensures RoundHalfEven(k as real) == k
  {
  }

  /** The size of the scaled block and its offset on the canvas. */
  datatype Geometry = Geometry(newW: int, newH: int, left: int, top: int)

  function Max1(n: int): (m: int)
    ensures m >= 1 && m >= n && (n >= 1 ==> m == n)
  {
    if n < 1 then 1 else n
  }

  /** `min(a, b)` of Python: `b` only when it is strictly smaller. */
  function MinReal(a: real, b: real): (m: real)
    ensures m <= a && m <= b && (m == a || m == b)
  {
    if b < a then b else a
  }

  /** The factor of `resize_keep_aspect`: the smaller of the two target
      ratios, so that both scaled sides fit. */
  function Scale(tw: Side, th: Side, w: nat, h: nat): (s: real)
    requires w > 0 && h > 0
    ensures 0.0 < s
    ensures s <= tw as real / w as real && s <= th as real / h as real
    ensures s == tw as real / w as real || s == th as real / h as real
  {
    MinReal(tw as real / w as real, th as real / h as real)
  }

  /** `n` is what `max(1, round(x))` can give for `x >= 0`: within one half of
      `x`, or 1 when `x` rounds to at most zero. */
  predicate RoundsNear(n: int, x: real)
  {
    (x - 0.5 <= n as real <= x + 0.5) || (n == 1 && x <= 0.5)
  }

  /** `max(1, round(x))` is near `x`. */
  lemma RoundedSideNear(x: real)
    ensures RoundsNear(Max1(RoundHalfEven(x)), x)
  {
  }

  /** The geometry of `resize_keep_aspect` for a `w`×`h` image and a
      `tw`×`th` target: None when a side is zero, where the division by that
      side raises. Both sides are scaled by the same factor and rounded half
      to even, with at least one pixel kept. */
  function KeepAspect(tw: Side, th: Side, w: nat, h: nat): (g: Option<Geometry>)
    ensures g.None? <==> w == 0 || h == 0
    ensures w > 0 && h > 0 ==> g.Some? && g.value.newW == Max1(RoundHalfEven(w as real * Scale(tw, th, w, h)))
    ensures w > 0 && h > 0 ==> g.Some? && g.value.newH == Max1(RoundHalfEven(h as real * Scale(tw, th, w, h)))
    ensures g.Some? ==> 1 <= g.value.newW <= tw && 1 <= g.value.newH <= th
    ensures g.Some? ==> g.value.newW == tw || g.value.newH == th
    ensures g.Some? ==> 0 <= g.value.left && g.value.left + g.value.newW <= tw
    ensures g.Some? ==> 0 <= g.value.top && g.value.top + g.value.newH <= th
    ensures g.Some? ==> tw - g.value.newW - g.value.left in {g.value.left, g.value.left + 1}
    ensures g.Some? ==> th - g.value.newH - g.value.top in {g.value.top, g.value.top + 1}
  {
    if w == 0 || h == 0 then None
    else
      ScaledSides(tw, th, w, h);
      Some(Fit(tw, th, w as real * Scale(tw, th, w, h), h as real * Scale(tw, th, w, h)))
  }

  /** The block keeps the image's aspect up to rounding: each side is within
      one half of the same multiple of the original side (or is the one pixel
      kept when that multiple rounds to nothing). */
  lemma KeepAspectKeepsAspect(tw: Side, th: Side, w: nat, h: nat)
    requires w > 0 && h > 0
    ensures KeepAspect(tw, th, w, h).Some?
    ensures RoundsNear(KeepAspect(tw, th, w, h).value.newW, w as real * Scale(tw, th, w, h))
    ensures RoundsNear(KeepAspect(tw, th, w, h).value.newH, h as real * Scale(tw, th, w, h))
  {
    RoundedSideNear(w as real * Scale(tw, th, w, h));
    RoundedSideNear(h as real * Scale(tw, th, w, h));
  }

  /** Both scaled sides lie within their targets, and the side whose ratio
      is the factor lands exactly on its target. */
  lemma ScaledSides(tw: Side, th: Side, w: nat, h: nat)
    requires w > 0 && h > 0
    ensures 0.0 < w as real * Scale(tw, th, w, h) <= tw as real
    ensures 0.0 < h as real * Scale(tw, th, w, h) <= th as real
    ensures w as real * Scale(tw, th, w, h) == tw as real || h as real * Scale(tw, th, w, h) == th as real
  {
    var k := Scale(tw, th, w, h);
    ScaledSideFits(tw, w, k);
    ScaledSideFits(th, h, k);
  }

  /** The block for scaled sides `xw`×`xh` that fit the target, one of them
      exactly: each side rounded half to even with at least one pixel kept,
      placed at the offsets of the centre paste, `(target - new) // 2`. */
  function Fit(tw: Side, th: Side, xw: real, xh: real): (g: Geometry)
    requires 0.0 <= xw <= tw as real && 0.0 <= xh <= th as real
    requires xw == tw as real || xh == th as real
    ensures g.newW == Max1(RoundHalfEven(xw)) && g.newH == Max1(RoundHalfEven(xh))
    ensures 1 <= g.newW <= tw && 1 <= g.newH <= th
    ensures g.newW == tw || g.newH == th
    ensures 0 <= g.left && g.left + g.newW <= tw && 0 <= g.top && g.top + g.newH <= th
    ensures tw - g.newW - g.left in {g.left, g.left + 1}
    ensures th - g.newH - g.top in {g.top, g.top + 1}
  {
    RoundBetween(xw, 0, tw);
    RoundBetween(xh, 0, th);
    var newW := Max1(RoundHalfEven(xw));
    var newH := Max1(RoundHalfEven(xh));
    assert newW == tw || newH == th by {
      if xw == tw as real { RoundInt(tw); } else { RoundInt(th); }
    }
    Geometry(newW, newH, (tw - newW) / 2, (th - newH) / 2)
  }

  /** A side scaled by at most its own ratio rounds to at most the target,
      and a side scaled by exactly its own ratio becomes the target. */
  lemma ScaledSideFits(t: Side, s: nat, scale: real)
    requires s > 0 && 0.0 < scale <= t as real / s as real
    ensures RoundHalfEven(s as real * scale) <= t
    ensures 0.0 < s as real * scale <= t as real
    ensures scale == t as real / s as real ==> s as real * scale == t as real
  {
    assert s as real * (t as real / s as real) == t as real;
    assert s as real * scale <= s as real * (t as real / s as real);
    RoundBetween(s as real * scale, (s as real * scale).Floor, t);
  }

  /** A 512×384 image on a 256×256 target is scaled by one half to 256×192
      and placed 32 rows down. */
  lemma KeepAspectExample()
    ensures KeepAspect(256, 256, 512, 384) == Some(Geometry(256, 192, 0, 32))
  {
    assert 256.0 / 512.0 == 0.5;
    assert 256.0 / 384.0 > 0.5;
    assert 384.0 * 0.5 == 192.0;
    RoundInt(256);
    RoundInt(192);
  }

  /** An exact tie rounds to the even side: 512×385 on 256×256 is scaled by
      one half to 256×192.5, which becomes 192, placed 32 rows down. */
  lemma KeepAspectTieExample()
    ensures KeepAspect(256, 256, 512, 385) == Some(Geometry(256, 192, 0, 32))
  {
    assert 256.0 / 512.0 == 0.5;
    assert 256.0 / 385.0 > 0.5;
    assert 385.0 * 0.5 == 192.5;
    assert (192.5).Floor == 192;
    RoundInt(256);
  }

  /** A square image fills a square target: 100×100 on 256×256 is scaled up
      to the whole canvas. */
  lemma SquareFillsCanvas()
    ensures KeepAspect(256, 256, 100, 100) == Some(Geometry(256, 256, 0, 0))
  {
    assert 100.0 * (256.0 / 100.0) == 256.0;
    RoundInt(256);
  }

  // ---------------------------------------------------------------------------
  // resize_keep_aspect: the canvas

  /** The pixel of a canvas at row `i`, column `j` after the paste: the
      scaled pixel inside the block, the zero fill outside. */
  predicate InBlock(i: int, j: int, top: int, left: int, rows: int, cols: int)
  {
    top <= i < top + rows && left <= j < left + cols
  }

  /** A `tw`×`th` canvas filled with `zero` with the buffer `resized` pasted
      at (`left`, `top`); pixels of the buffer that fall outside the canvas
      are clipped. Rows are the first array index. */
  method PadToCanvas<P>(resized: array2<P>, tw: nat, th: nat, left: int, top: int, zero: P)
    returns (canvas: array2<P>)
    ensures fresh(canvas)
    ensures canvas.Length0 == th && canvas.Length1 == tw
    ensures forall i, j :: 0 <= i < th && 0 <= j < tw && InBlock(i, j, top, left, resized.Length0, resized.Length1) ==>
      canvas[i, j] == resized[i - top, j - left]
    ensures forall i, j :: 0 <= i < th && 0 <= j < tw && !InBlock(i, j, top, left, resized.Length0, resized.Length1) ==>
      canvas[i, j] == zero
  {
    canvas := new P[th, tw]((i, j) => zero);
    var rows, cols := resized.Length0, resized.Length1;
    for i := 0 to th
      invariant forall r, c :: 0 <= r < th && 0 <= c < tw ==>
        canvas[r, c] == if r < i && InBlock(r, c, top, left, rows, cols) then resized[r - top, c - left] else zero
    {
      for j := 0 to tw
        invariant forall r, c :: 0 <= r < th && 0 <= c < tw ==>
          canvas[r, c] == if (r < i || (r == i && c < j)) && InBlock(r, c, top, left, rows, cols)
                          then resized[r - top, c - left] else zero
      {
        if InBlock(i, j, top, left, rows, cols) {
          canvas[i, j] := resized[i - top, j - left];
        }
      }
    }
  }

  /** `resize_keep_aspect` after resampling: `resized` is the scaled buffer,
      `newH` rows of `newW` pixels. None when a side of the image is zero. */
  method ResizeKeepAspect<P>(tw: Side, th: Side, w: nat, h: nat, resized: array2<P>, zero: P)
    returns (canvas: Option<array2<P>>)
    requires KeepAspect(tw, th, w, h).Some? ==>
      resized.Length0 == KeepAspect(tw, th, w, h).value.newH && resized.Length1 == KeepAspect(tw, th, w, h).value.newW
    ensures canvas.None? <==> w == 0 || h == 0
    ensures canvas.Some? ==> fresh(canvas.value)
    ensures canvas.Some? ==> canvas.value.Length0 == th && canvas.value.Length1 == tw
    ensures canvas.Some? ==>
      var g := KeepAspect(tw, th, w, h).value;
      forall i, j :: 0 <= i < th && 0 <= j < tw ==>
        canvas.value[i, j] == if InBlock(i, j, g.top, g.left, g.newH, g.newW) then resized[i - g.top, j - g.left] else zero
    ensures canvas.Some? ==>
      var g := KeepAspect(tw, th, w, h).value;
      forall i, j :: 0 <= i < g.newH && 0 <= j < g.newW ==> canvas.value[g.top + i, g.left + j] == resized[i, j]
  {
    var g := KeepAspect(tw, th, w, h);
    if g.None? {
      return None;
    }
    var c := PadToCanvas(resized, tw, th, g.value.left, g.value.top, zero);
    canvas := Some(c);
  }

  // ---------------------------------------------------------------------------
  // process_dir

  /** What opening a file gives: a failure, or an image of that size. */
  datatype Probe = Unreadable | Loaded(width: nat, height: nat)

  /** A destination: below the output folder, or the source itself. */
  datatype Dest = Dest(inOutDir: bool, path: RelPath)

  /** One `process_dir` call. `probe` stands for opening each file and
      `saveFails` for a save that raises; both are outside the model. */
  datatype Job = Job(
    tw: Side, th: Side, keepAspect: bool, isMask: bool, dryRun: bool, toOutDir: bool,
    probe: RelPath -> Probe, saveFails: Dest -> bool)

  /** A file written: where, and the size of the written image. */
  datatype Written = Written(dst: Dest, width: int, height: int)

  /** How one file ends: skipped after an exception, or counted, with the
      write it made (none on a dry run). */
  datatype Step = Skipped | Counted(write: Option<Written>)

  /** Where the result for `src` is saved: the same relative path below the
      output folder or the source itself, with ".png" forced for masks. */
  function SaveDest(job: Job, src: RelPath): (d: Dest)
    ensures d.inOutDir == job.toOutDir && d.path.dirs == src.dirs && d.path.file.stem == src.file.stem
    ensures d.path.file.ext == if job.isMask then ".png" else src.file.ext
  {
    var dst := Dest(job.toOutDir, src);
    if job.isMask then dst.(path := src.(file := src.file.(ext := ".png"))) else dst
  }

  /** One turn of the loop of `process_dir`. */
  function Attempt(job: Job, src: RelPath): (s: Step)
    ensures s.Counted? <==>
      job.probe(src).Loaded?
      && (job.keepAspect ==> job.probe(src).width > 0 && job.probe(src).height > 0)
      && (!job.dryRun ==> !job.saveFails(SaveDest(job, src)))
    ensures s.Counted? ==> (s.write.None? <==> job.dryRun)
    ensures s.Counted? && s.write.Some? ==>
      s.write.value == Written(SaveDest(job, src), job.tw, job.th)
  {
    match job.probe(src)
    case Unreadable => Skipped
    case Loaded(w, h) =>
      // the division in `KeepAspect` raises exactly when a side is zero
      if job.keepAspect && (w == 0 || h == 0) then Skipped
      else if job.dryRun then Counted(None)
      else
        var dst := SaveDest(job, src);
        if job.saveFails(dst) then Skipped else Counted(Some(Written(dst, job.tw, job.th)))
  }

  function CountedBy(job: Job): RelPath -> bool
  {
    (src: RelPath) => Attempt(job, src).Counted?
  }

  function SkippedBy(job: Job): RelPath -> bool
  {
    (src: RelPath) => Attempt(job, src).Skipped?
  }

  function IsImageAt(): RelPath -> bool
  {
    (p: RelPath) => IsImageFile(p.file)
  }

  /** The files `process_dir` visits below its folder. */
  function ImageFiles(root: seq<Node>): (r: seq<RelPath>)
    ensures forall p :: p in r <==> p in Walk(root) && IsImageFile(p.file)
  {
    Filter(Walk(root), IsImageAt())
  }

  datatype DirResult = DirResult(count: nat, skipped: nat, writes: seq<Written>)

  /** The loop of `process_dir` after the files `files`. */
  function RunFiles(job: Job, files: seq<RelPath>): DirResult
    decreases |files|
  {
    if files == [] then DirResult(0, 0, [])
    else Record(RunFiles(job, files[..|files| - 1]), Attempt(job, files[|files| - 1]))
  }

  /** The bookkeeping of one turn: `skipped` or `count` goes up by one, and
      a write is recorded. */
  function Record(r: DirResult, s: Step): DirResult
  {
    match s
    case Skipped => r.(skipped := r.skipped + 1)
    case Counted(None) => r.(count := r.count + 1)
    case Counted(Some(wr)) => DirResult(r.count + 1, r.skipped, r.writes + [wr])
  }

  /** Every file is counted or skipped, never both: the counted ones are
      exactly those whose turn succeeds. A dry run writes nothing; otherwise
      one file is written per counted file. */
  lemma {:induction false} RunFilesBalance(job: Job, files: seq<RelPath>)
    ensures RunFiles(job, files).count + RunFiles(job, files).skipped == |files|
    ensures RunFiles(job, files).count == |Filter(files, CountedBy(job))|
    ensures RunFiles(job, files).skipped == |Filter(files, SkippedBy(job))|
    ensures job.dryRun ==> RunFiles(job, files).writes == []
    ensures !job.dryRun ==> |RunFiles(job, files).writes| == RunFiles(job, files).count
    decreases |files|
  {
    if files != [] {
      RunFilesBalance(job, files[..|files| - 1]);
    }
  }

  /** Every write has the target size and goes to the save destination of a
      visited file; a mask is always written as a PNG. */
  lemma {:induction false} RunFilesWrites(job: Job, files: seq<RelPath>, wr: Written)
    requires wr in RunFiles(job, files).writes
    ensures wr.width == job.tw && wr.height == job.th
    ensures exists src :: src in files && wr.dst == SaveDest(job, src)
    ensures job.isMask ==> wr.dst.path.file.ext == ".png"
    decreases |files|
  {
    var init := files[..|files| - 1];
    var last := files[|files| - 1];
    if wr in RunFiles(job, init).writes {
      RunFilesWrites(job, init, wr);
      var src :| src in init && wr.dst == SaveDest(job, src);
      assert src in files;
    } else {
      assert wr.dst == SaveDest(job, last);
    }
  }

  /** What `process_dir` returns for a folder that may be missing. */
  function DirOutcome(inDir: Option<seq<Node>>, job: Job): DirResult
  {
    match inDir
    case None => DirResult(0, 0, [])
    case Some(root) => RunFiles(job, ImageFiles(root))
  }

  /** A missing folder, or one without images, gives (0, 0); otherwise
      every visited file is counted or skipped. */
  lemma DirOutcomeCounts(inDir: Option<seq<Node>>, job: Job)
    ensures inDir.None? ==> DirOutcome(inDir, job) == DirResult(0, 0, [])
    ensures inDir.Some? && ImageFiles(inDir.value) == [] ==> DirOutcome(inDir, job) == DirResult(0, 0, [])
    ensures inDir.Some? ==> DirOutcome(inDir, job).count + DirOutcome(inDir, job).skipped == |ImageFiles(inDir.value)|
    ensures job.dryRun ==> DirOutcome(inDir, job).writes == []
  {
    if inDir.Some? {
      RunFilesBalance(job, ImageFiles(inDir.value));
    }
  }

  /** One more file adds its turn to the bookkeeping. */
  lemma RunFilesSnoc(job: Job, files: seq<RelPath>, i: nat)
    requires i < |files|
    ensures RunFiles(job, files[..i + 1]) == Record(RunFiles(job, files[..i]), Attempt(job, files[i]))
  {
    assert files[..i + 1][..i] == files[..i];
  }

  /** The loop of `process_dir` over the visited files. */
  method RunFilesLoop(job: Job, files: seq<RelPath>) returns (r: DirResult)
    ensures r == RunFiles(job, files)
  {
    var count: nat, skipped: nat := 0, 0;
    var writes: seq<Written> := [];
    for i := 0 to |files|
      invariant DirResult(count, skipped, writes) == RunFiles(job, files[..i])
    {
      RunFilesSnoc(job, files, i);
      var step := Attempt(job, files[i]);
      if step.Skipped? {
        skipped := skipped + 1;
      } else {
        if step.write.Some? {
          writes := writes + [step.write.value];
        }
        count := count + 1;
      }
    }
    assert files[..|files|] == files;
    r := DirResult(count, skipped, writes);
  }

  /** `process_dir`. */
  method ProcessDir(inDir: Option<seq<Node>>, job: Job) returns (r: DirResult)
    ensures r == DirOutcome(inDir, job)
  {
    if inDir.None? {
      return DirResult(0, 0, []);
    }
    var files := ImageFiles(inDir.value);
    if files == [] {
      return DirResult(0, 0, []);
    }
    r := RunFilesLoop(job, files);
  }
}

=== FILE: seqs.dfy ===
/** Sequence utilities shared by the four dataset scripts: an optional value,
    an order-preserving filter (a list comprehension with an `if`), and the
    subsequence relation that such a filter establishes. */
module Seqs {

  datatype Option<T> = None | Some(value: T)

  /** The elements of `s` that satisfy `p`, in their original order. Defined on
      the last element so that a loop appending left to right extends it. */
  function Filter<T(!new)>(s: seq<T>, p: T -> bool): (r: seq<T>)
    ensures |r| <= |s|
    ensures forall x :: x in r <==> x in s && p(x)
    decreases |s|
  {
    if s == [] then []
    else Filter(s[..|s| - 1], p) + (if p(s[|s| - 1]) then [s[|s| - 1]] else [])
  }

  /** `a` can be obtained from `b` by deleting elements: the order of what is
      kept is the order in `b`. */
  ghost predicate Subsequence<T>(a: seq<T>, b: seq<T>)
    decreases |b|
  {
    if b == [] then a == []
    else
      Subsequence(a, b[..|b| - 1])
      || (a != [] && a[|a| - 1] == b[|b| - 1] && Subsequence(a[..|a| - 1], b[..|b| - 1]))
  }

  /** Filtering keeps the input order: the result is a subsequence of the input. */
  lemma {:induction false} FilterIsSubsequence<T(!new)>(s: seq<T>, p: T -> bool)
    ensures Subsequence(Filter(s, p), s)
    decreases |s|
  {
    if s != [] {
      var init, last := s[..|s| - 1], s[|s| - 1];
      FilterIsSubsequence(init, p);
      var r := Filter(s, p);
      if p(last) {
        assert r[..|r| - 1] == Filter(init, p);
      } else {
        assert r == Filter(init, p);
      }
    }
  }

  /** The index of the first element of `s` that satisfies `p`, if any. */
  function FindFirst<T>(s: seq<T>, p: T -> bool): (r: Option<nat>)
    ensures r.None? <==> forall i :: 0 <= i < |s| ==> !p(s[i])
    ensures r.Some? ==> r.value < |s| && p(s[r.value]) && forall j :: 0 <= j < r.value ==> !p(s[j])
    decreases |s|
  {
    if s == [] then None
    else if p(s[0]) then Some(0)
    else match FindFirst(s[1..], p)
      case None => None
      case Some(k) => Some(k + 1)
  }
}
